=== FILE: README.md ===
# Rough Light: grid, map, generator and movement in Dafny

This project models the logic layer of the Rough Light roguelike. That layer has four parts:

- integer grid geometry: the `Vector` and `Rect` types;
- the sparse tile `Map`: an unbounded plane of `Tile`s with a default tile and a list of rooms;
- the room generator `Map.Random`;
- the game-level pieces: moving objects, collision queries, the objects shown on the player's page, and the conversion of map coordinates to console cells.

Modules, one per part of the program:

- `Results`: `Option`, `Result`, `ValueError` and `TypeError`, for the places where the code raises.
- `PyInt`: Python's `//` and `%` for any non-zero divisor. Dafny's `/` and `%` agree with them only for a positive divisor.
- `Geometry` (`src/utils.py`): `Vector`, `Rect`, `intersects`, `contains`, `get_center`.
- `Tiles` (`src/map.py`): `Tile` and its defaulting constructor, and `shallow_copy`.
- `Grid` (`src/map.py`): the `Map` value and its operations. These are get/set, `in_area`, `get_area`, `set_rect` and `set_connection`.
- `Generator` (`src/map.py`): `Map.Random`.
- `Objects` (`src/objects.py`): `Object.move` and `Player`.
- `Game` (`src/rough_light_game.py`): construction with room labels, `is_blocked`, `move_player` and `visible_objects`.
- `Screen` (`rough_light.py`): `KEY_MOVEMENT_VECTORS`, the room-label loop of `Game.__init__`, and `convert_location`.

Modelling choices:

- Tiles and maps are immutable values. `set_rect` stores `shallow_copy(tile)`, which in the model equals `tile`. The model has no in-place change of a tile, so it says nothing about a template tile changed after painting (see "## Left out").
- The random source is a parameter `rand: nat -> int`; the n-th `randrange(lo, hi)` call answers with draw n reduced into `[lo, hi)`. Any function is a possible run, so every outcome of `randrange` is reachable. An empty range raises `ValueError`, as Python's `randrange` does.
- Python aliases the player: the same object sits in `objects` and in `self.player`. The model keeps the player as an index into `objects`.
- A glyph is a sequence of code points. The player's `b'@'` is `[64]` and label i is `[0x61 + i]`. Dafny's `char` cannot hold the surrogate code points that `chr` can produce for large i.
- `src/rough_light_game.py` reads `tile.blocks` and `object.blocks`, but neither attribute is defined anywhere. The model reads the tile's `blocked` flag and gives every object a `blocks` flag. Players and labels built here get `false`.
- Only the second `is_blocked` definition (src/rough_light_game.py:55) takes effect, so only it is modelled.
- Without a `player` argument, `RoughLightGame.__init__` calls `Player(start, b'@', WHITE, map, STARTING_LIFE, fov=20)`. `Player.__init__` takes four arguments after `self` and no `fov`, so that call raises `TypeError`. The model returns that failure: a game is built only when a player is given.
- `set_connection` carves an L: a horizontal bar along `location1`'s row, then a vertical bar along `location2`'s column. The vertical bar is half-open, so it stops one row below the higher endpoint. When `location2` lies far enough above `location1` it is not carved. For example, `(0,0)` to `(0,5)` with width 1 leaves `(0,5)` alone (`Grid.CorridorMissesHigherEnd`). The generator always connects to the center of a room it has just carved. So when `1 <= min_room_size <= max_room_size`, generated maps do not show this (`Generator.GeneratedCentersCarved`). With a room size of zero or less a room has no cells, and the uncarved end can show.

## Model

| member | source | states |
|---|---|---|
| PyInt.FloorDiv | src/map.py:71-75 | `math.floor(a / b)` is the q whose block `[q*b, q*b+b)` holds a (mirrored for b < 0) |
| PyInt.PyMod | rough_light.py:120 | Python's `%` takes the sign of the divisor and satisfies `a == (a // b) * b + a % b` |
| PyInt.FloorDivUnique | src/map.py:71-75 | floor division has exactly one answer: any q with `q*b <= a < q*b + b` is `a // b` |
| PyInt.NegatedPyMod | rough_light.py:120 | `(-a - 1) % b == b - 1 - a % b` for b > 0: the row count from the top mirrors the row count from the bottom |
| Geometry.Add | src/utils.py:8-12 | `v + w` is v moved by the offset w on each axis (`AddCommutes`: the `__radd__` order agrees) |
| Geometry.Sub | src/utils.py:20-21 | `v - w` is the offset that moves w to v |
| Geometry.Scale | src/utils.py:14-18 | `v * k` and `k * v` give the same vector, each component multiplied by k |
| Geometry.AddSubCancel | src/utils.py:8-21 | `(v + w) - w == v` and `(v - w) + w == v` |
| Geometry.AddCommutes | src/utils.py:8-12 | `v + w == w + v` |
| Geometry.AddAssociates | src/utils.py:8-9 | `(u + v) + w == u + (v + w)` |
| Geometry.ScaleDistributes | src/utils.py:8-18 | `k * (v + w) == k*v + k*w`, and `v + v * -1` is the zero vector |
| Geometry.MakeRect | src/utils.py:63-67 | the origin and the width and height can be read back from the corners; non-negative sizes give `x1 <= x2` and `y1 <= y2` |
| Geometry.Center | src/utils.py:86-88 | `get_center` is the floor of the midpoint on each axis: `2c <= x1 + x2 <= 2c + 1` |
| Geometry.CenterInside | src/utils.py:86-88 | the center of a rectangle with positive width and height is one of its cells |
| Geometry.IntersectsSymmetric | src/utils.py:72-77 | `a.intersects(b) == b.intersects(a)` |
| Geometry.IntersectsIffSharedPoint | src/utils.py:72-77 | for well-formed rectangles, `intersects` holds exactly when their closed extents share a grid point |
| Geometry.TouchingRectsIntersect | src/utils.py:72-77 | `Rect(0,0,4,4)` intersects `Rect(4,4,2,2)` (corner contact) and `Rect(4,0,2,4)` (edge contact), but not `Rect(5,0,2,4)` |
| Geometry.ContainsReflexive | src/utils.py:79-84 | every rectangle contains itself |
| Geometry.ContainsTransitive | src/utils.py:79-84 | containment chains |
| Geometry.ContainsNotSymmetric | src/utils.py:79-84 | `Rect(0,0,4,4)` contains `Rect(1,1,2,2)`, and the converse fails |
| Geometry.ContainsIffCells | src/utils.py:79-84 | for a rectangle with a cell, `contains` holds exactly when each of its cells is a cell of the other rectangle |
| Geometry.ContainsImpliesIntersects | src/utils.py:72-84 | a rectangle of non-negative size intersects any rectangle containing it |
| Tiles.NewTile | src/map.py:16-29 | an omitted `block_sight` becomes `blocked` and an omitted `dark_color` becomes `color`; given values and the other fields are kept |
| Tiles.ShallowCopy | src/map.py:31-32 | the copy equals the original in every field |
| Tiles.OmittedDefaultsAreFallbacks | src/map.py:16-26 | omitting the optional arguments equals passing `blocked` and `color` for them |
| Grid.EmptyMap | src/map.py:45-55 | `Map(default=d)` stores no cell and no room, so every cell reads d |
| Grid.Get | src/map.py:57-58 | a read never fails: it yields `default` or a tile the map stores (per key: `Grid.FreshMapReads`, `Grid.ReadAfterWrites`) |
| Grid.Set | src/map.py:57-61 | after `map[key] = t` the key reads `t`, every other key reads what it read before, and rooms and default are unchanged |
| Grid.ReadAfterWrites | src/map.py:57-61 | after any sequence of writes a key reads its last written value, or what it read before if never written |
| Grid.FreshMapReads | src/map.py:45-58 | on a fresh map, a never-written key reads `default` and a written key reads the value last stored |
| Grid.InArea | src/map.py:66-77 | `ValueError` exactly when width or height is zero; otherwise true exactly when the page origins agree |
| Grid.InAreaReflexive | src/map.py:66-77 | every location is in its own area |
| Grid.InAreaSymmetric | src/map.py:66-77 | swapping the two locations gives the same answer, including the error |
| Grid.InAreaTransitive | src/map.py:66-77 | being in the same area chains |
| Grid.InAreaIffSamePage | src/map.py:66-77 | for positive sizes, `in_area` holds exactly when one grid-aligned width x height page holds both points |
| Grid.PagingExamples | src/map.py:66-77 | `(-1,-1)` and `(0,0)` are on different 10x10 pages; `(3,3)` and `(9,9)` share one; `(10,10)` does not; width 0 raises |
| Grid.GetArea | src/map.py:79-97 | `ValueError` exactly for a zero width or height; otherwise `range(width)` columns of `range(height)` entries |
| Grid.AreaEntryOnPage | src/map.py:86-94 | entry `[x][j]` pairs a cell of the location's page with the tile the map holds there |
| Grid.PageCellInArea | src/map.py:86-94 | each cell of the location's page is the entry at column `x - x_off`, row `height - 1 - (y - y_off)` |
| Grid.GetAreaIsPage | src/map.py:79-97 | every entry lies on the location's page with the map's tile there, and every cell of that page sits at column `x - x_off`, row `height - 1 - (y - y_off)` |
| Grid.SetRect | src/map.py:99-111 | every cell of the rectangle holds the tile; every other stored cell is unchanged; rooms grow by exactly `[rect]` when `is_room` holds, and are unchanged otherwise |
| Grid.CorridorShape | src/map.py:113-132 | for width >= 1 the bars cover `location1`, the row of `location1` between the two columns, and the column of `location2` between the rows; they cover `location2` when it is not above `location1` |
| Grid.CorridorMissesHigherEnd | src/map.py:128-132 | the vertical bar is half-open: `(0,0)` to `(0,5)` with width 1 leaves `(0,5)` uncarved |
| Grid.HorizontalBar | src/map.py:119-125 | the horizontal bar is `width` high and spans the distance between the two columns plus `width` |
| Grid.VerticalBar | src/map.py:121-128 | the vertical bar is `width` wide and spans the distance between the two rows |
| Grid.SetConnection | src/map.py:113-132 | only cells of the two bars change and they hold the tile; `location1` is carved for width >= 1; rooms and default are unchanged |
| Generator.RandRange | src/map.py:154-158 | `randrange(lo, hi)` gives a value in `[lo, hi)` (the draw itself when in range) and raises exactly when the range is empty |
| Generator.IntersectsAny | src/map.py:169-171 | the loop over earlier rooms flags a collision exactly when some earlier room intersects the candidate |
| Generator.Random | src/map.py:135-192 | with timeout >= 1 the generator terminates; the result keeps `default`; room 0 is the `max_room_size` square around `center`; each later room has size in `[min, max]`, lies in `area_rect`, and misses every earlier room; at most `max(1, room_number)` rooms; every stored cell holds `room_tile` and every room cell is stored; each room after the first is joined to the previous room's center by a carved L corridor whose width `tw` satisfies `2 <= tw < 3 + w // 4` for that room's width `w`; no cell off the rooms and those corridors is stored (`LaidOut`); the whole draw sequence is traced (`Run`): room i + 1 is the candidate drawn at the ghost position `accepts[i]`, after fewer than `timeout` rejected candidates since the previous acceptance, its tunnel width is the draw at `accepts[i] + 4`, and the generator stops at the returned position `final`, with fewer than `room_number` rooms exactly when the `timeout` candidates drawn since the last acceptance, ending at `final`, were all rejected, each leaving `area_rect` or meeting a placed room; `ValueError` only when a `randrange` range can be empty (min > max, an empty area, or a negative minimum size), and always when more than one room is wanted with min > max or an empty area |
| Generator.Attempt | src/map.py:151-190 | one pass of the loop draws the candidate `Candidate` describes at stream position n; a rejected one leaves the map and the corridor widths alone, advances the stream to n + 4, spends one retry and lengthens the run of rejections by one; an accepted one appends exactly that candidate to the rooms, draws its tunnel width at n + 4 in `[2, 3 + w // 4)`, advances the stream to n + 5 and restores `timeout` retries; either way the layout invariant is kept; a `ValueError` only from an empty `randrange` range |
| Generator.RejectionStep | src/map.py:173-174 | a rejected candidate drawn at position p turns a run of k rejections ending at p into a run of k + 1 ending at p + 4 |
| Generator.DrawRoom | src/map.py:154-171 | the four draws w, h, x, y at positions n .. n + 3 give exactly the room `Candidate` describes, with width and height in `[min, max]`; they fail exactly when a range is empty; the returned flag says whether the loop rejects that room |
| Generator.PlaceRoom | src/map.py:180-190 | accepting a room draws the tunnel width at the given position, in `[2, 3 + w // 4)`, fails exactly when `w < 0` makes that range empty, and otherwise keeps the layout invariant with the room's center as the new last center |
| Generator.RunStarts | src/map.py:138-151 | before the loop the trace is empty: no acceptance, no rejection, position 0 |
| Generator.TailRejects | src/map.py:173-178 | a rejection lengthens the run since the last acceptance by one, and the run is spent exactly when it reaches `timeout` |
| Generator.RunRejects | src/map.py:173-178 | a rejected candidate keeps the trace of accepted rooms and extends the current run of rejections |
| Generator.TracedGrows | src/map.py:151-190 | the trace of the first i acceptances depends only on the first i rooms, widths and positions, so appending to them keeps it |
| Generator.RunAccepts | src/map.py:180-190 | an accepted candidate is recorded with its position, and its width drawn next; the run of rejections restarts right after the width draw |
| Generator.RunAfterAttempt | src/map.py:151-190 | one pass of the loop, rejected or accepted, carries the trace over and keeps the stream position equal to the last restart plus four per rejection since |
| Generator.RunDraws | src/map.py:154-190 | on a trace, room j + 1 is the candidate drawn at `accepts[j]`, its tunnel width is the draw at `accepts[j] + 4`, and the positions grow by at least 5 |
| Generator.RunExhausted | src/map.py:173-178 | a spent run is `timeout` consecutive rejected candidates ending at the final position |
| Generator.InAnyRoom | src/map.py:180-181 | a cell belongs to some room exactly when some room index holds it |
| Generator.InAnyCorridor | src/map.py:183-186 | a cell lies on one of the first n - 1 corridors exactly when some corridor index covers it |
| Generator.Centers | src/map.py:184-188 | the recorded corridor ends are the rooms' centers, in room order |
| Generator.BoundedStarts | src/map.py:138-146 | before the loop every stored cell is a cell of the center room |
| Generator.BoundedExtend | src/map.py:180-188 | carving a room and its corridor adds only cells of that room and corridor |
| Generator.LaidOutFromChain | src/map.py:180-192 | the chain of corridors and the cell bound together give the map's layout and its corridor joins |
| Generator.LaidOutReads | src/map.py:135-192 | on a generated map a cell off every room and every corridor is not stored and reads `default` |
| Generator.CenterRoom | src/map.py:143-145 | the first room is `max_room_size` wide and high and its `get_center` is `center` |
| Generator.CenterOfRoom | src/map.py:184 | the corridor end `(x + w // 2, y + h // 2)` is `get_center` of the room `Rect(x, y, w, h)` |
| Generator.ChainStarts | src/map.py:143-148 | the first corridor starts at `center`, the center of the first room |
| Generator.CarveRoom | src/map.py:180-186 | carving a room and its corridor records the room, loses no cell, stores only `room_tile`, stores every cell of both corridor bars, and stores nothing else new |
| Generator.GeneratedRoomsExtend | src/map.py:162-181 | a sampled room that misses every earlier room keeps the room list generated |
| Generator.ChainedGrows | src/map.py:180-188 | later rooms and corridors only add cells, so every corridor already carved stays carved |
| Generator.ChainedJoins | src/map.py:183-188 | a chain of recorded widths and centers records each room's center and, for each room after the first, a drawn width and the carved corridor from the previous center |
| Generator.ChainedExtend | src/map.py:180-188 | accepting a room extends the chain of corridors by exactly one link |
| Generator.AcceptRoom | src/map.py:180-190 | the accepted-room branch keeps the rooms generated and carved, adds the corridor from the last center to the new room's center, and carves nothing outside the rooms and the recorded corridors |
| Generator.GeneratedCentersCarved | src/map.py:180-188 | with `1 <= min_room_size <= max_room_size`, every room center holds `room_tile`, so both ends of every corridor are open |
| Generator.GeneratedRoomsDisjoint | src/map.py:162-173 | no two generated rooms intersect, in either order |
| Generator.GeneratedMapReads | src/map.py:146-190 | every read of a generated map yields `room_tile` or `default`, and every room cell reads `room_tile` |
| Objects.Move | src/objects.py:9-12 | the object steps by the velocity exactly when it has a map whose target tile is not blocked; otherwise it stays; nothing but the location changes |
| Objects.MoveKeepsOpenCell | src/objects.py:9-12 | an object on a non-blocked cell of its map is still on one after a move |
| Objects.MoveAllKeepsOpenCell | src/objects.py:9-12 | the same holds after any number of moves, and only the location changes |
| Objects.MoveUndo | src/objects.py:9-12 | a successful move from a non-blocked cell is undone by the opposite move |
| Objects.MakePlayer | src/objects.py:19-24 | a player is always built visible, with the given location, symbol, colour and map |
| Game.RoomLabels | src/rough_light_game.py:28-33 | one label per room in room order, at the room's center (a cell of the room when it has positive size), with symbol `chr(ord('a') + i)`; all symbols differ |
| Game.NewGame | src/rough_light_game.py:11-33 | `TypeError` exactly when no player is given; otherwise objects are the given ones, then the given player, then exactly one visible label per room |
| Game.AnyBlockerAt | src/rough_light_game.py:59 | the `any(...)` scan is true exactly when some object both blocks and stands at the location |
| Game.IsBlocked | src/rough_light_game.py:55-59 | blocked exactly when the map tile blocks or some blocking object stands there |
| Game.MovePlayer | src/rough_light_game.py:51-53 | a blocked target leaves the game unchanged; otherwise the player makes its own move and no other object changes |
| Game.MovePlayerLandsClear | src/rough_light_game.py:51-59 | a player moving on the game's map either stays or advances by the direction onto a non-blocked tile with no other blocking object |
| Game.ShownInOrder | src/rough_light_game.py:42-47 | the reference filter: an object is kept exactly when it is visible, seen and on the player's page |
| Game.Reverse | src/rough_light_game.py:48 | `reversed` lists the same elements back to front |
| Game.ReverseMembers | src/rough_light_game.py:48 | reversing keeps exactly the same members |
| Game.VisibleObjects | src/rough_light_game.py:42-48 | every returned object is visible, seen and on the player's page; every such object is returned; the result is the reference filter reversed; `ValueError` exactly when the page size is zero and some object is visible and seen |
| Screen.KeyMovementVectorsAreUnitSteps | rough_light.py:27-32 | all four arrow keys map to distinct unit steps, with up being `(0, 1)` |
| Screen.ConvertLocation | rough_light.py:116-120 | for positive sizes the column is in `[0, width)` and the row is `height - 1 - (y mod height)`, in `[0, height)` |
| Screen.ConvertLocationMatchesArea | rough_light.py:116-120 | a location on the player's page is drawn at the column and row where `get_area` lists it |
| Screen.ScreenLabels | rough_light.py:46-52 | exactly one label per room at the room's center, lettered from `'a'`, invisible and without a map |

## Left out

- `src/raycast.py` (`cast_rays`, `cast_ray`) and the seen/explored bookkeeping it feeds. The sweep uses floating-point `sin` and `cos` and truncates floats to cells. Here `seen` is a parameter of `visible_objects`.
- `Vector.__rsub__` (src/utils.py:23-24): no separate member. For a `Vector` left operand `other - self` is `Geometry.Sub(other, self)`; any other left operand is outside the model, where `Vector` is a pair of integers.
- `Vector.magnitude`, `normalize`, `to_int`, `to_float`, `__truediv__`, `__rtruediv__` and `__pow__` (src/utils.py:26-59). These are float or power arithmetic. `Vector` is modelled as a pair of integers, not as a tuple of any length.
- PyInt.FloorDiv: `in_area` and `get_area` compute `math.floor(x / width)` through a float. For magnitudes beyond 2^53 the float quotient can round, and the model uses the exact floor quotient instead.
- The libtcod side of `rough_light.py`: font and console setup, `run`, `step`, `draw`, `draw_object`, `clear_object`, key polling in `handle_keys`, and fullscreen toggling. Also left out are the player and NPC that `Game.__init__` creates after the labels. This is display and input code.
- `print` calls, `__str__` methods and the `__main__` blocks.
- Sharing between a template tile and its painted copies. `shallow_copy` (src/map.py:31-32) passes the same `events` list and the same colour objects to every copy. So an in-place change to a template's `events` or colours reaches every cell painted from it. Tiles here are immutable values with no identity, and the model cannot express a sub-object shared between tiles.
- The `AttributeError` fallback of `set_rect` (src/map.py:106-108). Tiles are values, so a copy always exists.
- A `Map` whose `default` is `None`. Reading an unwritten cell of such a map would give `None`, and `.blocked` on it would raise. The model's map always has a default tile.
- The `Map(initial_grid, rooms, default)` constructor is the `GameMap` datatype constructor. Its replacement of an empty dict or list by a fresh one gives the same value.
- Generator.Random: with `timeout <= 0` the source can loop forever (`not room_timeout` never becomes true), so the model requires `timeout >= 1`. Reproducibility from a seed holds because the stream is an explicit parameter, and is not stated as a separate property.
- Game.NewGame: requires at most 0x10FFFF - 0x61 + 1 rooms, like `Game.RoomLabels`, because `chr` raises `ValueError` beyond that. The `TypeError` of the missing-player path is modelled, but its message text is not the interpreter's.
- Game.RoomLabels: requires at most 0x10FFFF - 0x61 + 1 rooms. Beyond that, `chr` raises `ValueError`.
- Screen.ScreenLabels: requires at most 0x10FFFF - 0x61 + 1 rooms, for the same reason: `chr` raises `ValueError` beyond that.
- The first `is_blocked` (src/rough_light_game.py:35-39): the second definition replaces it.
- Mutation of the caller's `objects` list by `RoughLightGame.__init__` (it appends to the list it was given). The model returns a new game value.

=== FILE: game.dfy ===
/** `RoughLightGame` of src/rough_light_game.py: the object list with its
    player and room labels, collision queries, player movement and the
    objects shown on the player's page. */
module Game {
  import opened Results
  import opened Geometry
  import opened Tiles
  import opened Grid
  import opened Objects

  /** The game's white, `(255, 255, 255)` (libtcod's white has the same components). */
  const White := Rgb(255, 255, 255)

  /** Code point of `'a'`, the symbol of the first room label. */
  const LabelBase := 0x61

  /** `chr` accepts code points up to 0x10FFFF, which bounds the number of labels. */
  const MaxLabels := 0x10FFFF - LabelBase + 1

  /** The game state. The player is one of the objects (the Python code
      holds the same object in both places), so it is kept as an index. */
  datatype GameState = GameState(
    gameMap: GameMap,
    width: int,
    height: int,
    objects: seq<Object>,
    player: nat)

  /** Room i's label: `Object(room.get_center(), chr(ord('a') + i), color, visible)`. */
  predicate IsLabel(o: Object, room: Rect, i: int, color: Color, visible: bool)
  {
    && o.location == Center(room)
    && o.symbol == [LabelBase + i]
    && o.color == color
    && o.visible == visible
    && o.gameMap.None?
    && !o.blocks
  }

  /** The label loop: one label per room, in room order, each at its room's
      center and all with different symbols. */
  method RoomLabels(rooms: seq<Rect>, color: Color, visible: bool) returns (labels: seq<Object>)
    requires |rooms| <= MaxLabels
    ensures |labels| == |rooms|
    ensures forall i :: 0 <= i < |rooms| ==> IsLabel(labels[i], rooms[i], i, color, visible)
    ensures forall i, j :: 0 <= i < j < |labels| ==> labels[i].symbol != labels[j].symbol
    ensures forall i :: 0 <= i < |rooms| && Width(rooms[i]) > 0 && Height(rooms[i]) > 0 ==>
              InRect(rooms[i], labels[i].location)
  {
    labels := [];
    var count := 0;
    while count < |rooms|
      invariant 0 <= count <= |rooms|
      invariant |labels| == count
      invariant forall i :: 0 <= i < count ==> IsLabel(labels[i], rooms[i], i, color, visible)
    {
      var roomLabel := Object(Center(rooms[count]), [LabelBase + count], color, visible, None, false);
      labels := labels + [roomLabel];
      count := count + 1;
    }
    forall i | 0 <= i < |rooms| && Width(rooms[i]) > 0 && Height(rooms[i]) > 0
      ensures InRect(rooms[i], labels[i].location)
    {
      CenterInside(rooms[i]);
    }
  }

  /** `RoughLightGame(game_map, width, height, objects=..., start=..., player=...)`:
      the given objects, then the player, then one visible label per room.
      Without a player the constructor builds a default one as
      `Player(start, b'@', WHITE, map, STARTING_LIFE, fov=20)`, which
      `Player.__init__` (four parameters after self, no `fov`) rejects
      with a `TypeError`; so a game exists only when a player is given. */
  method NewGame(gameMap: GameMap, width: int, height: int, objects: seq<Object>,
                 start: Vector, player: Option<Object>) returns (r: Result<GameState>)
    requires |gameMap.rooms| <= MaxLabels
    ensures r.Failure? <==> player.None?
    ensures r.Failure? ==> r.error.TypeError?
    ensures r.Success? ==> var g := r.value;
              && g.gameMap == gameMap && g.width == width && g.height == height
              && |g.objects| == |objects| + 1 + |gameMap.rooms|
              && g.objects[..|objects|] == objects
              && g.player == |objects|
              && g.objects[g.player] == player.value
              && forall i :: 0 <= i < |gameMap.rooms| ==>
                   IsLabel(g.objects[|objects| + 1 + i], gameMap.rooms[i], i, White, true)
  {
    if player.None? {
      return Failure(TypeError("Player.__init__() rejects (start, b'@', WHITE, map, STARTING_LIFE, fov=20)"));
    }
    var labels := RoomLabels(gameMap.rooms, White, true);
    var g := GameState(gameMap, width, height, objects + [player.value] + labels, |objects|);
    assert forall i :: 0 <= i < |labels| ==> g.objects[|objects| + 1 + i] == labels[i];
    return Success(g);
  }

  /** Whether some blocking object stands at location (the `any(...)` scan). */
  function AnyBlockerAt(objects: seq<Object>, location: Vector): (b: bool)
    ensures b <==> exists i :: 0 <= i < |objects| && objects[i].blocks && objects[i].location == location
  {
    if |objects| == 0 then false
    else (objects[0].blocks && objects[0].location == location) || AnyBlockerAt(objects[1..], location)
  }

  /** `is_blocked` (the second, effective definition): the map tile at
      location is blocked, or a blocking object stands there. */
  function IsBlocked(g: GameState, location: Vector): (b: bool)
    ensures b <==> Get(g.gameMap, location).blocked
                   || exists i :: 0 <= i < |g.objects| && g.objects[i].blocks && g.objects[i].location == location
  {
    Get(g.gameMap, location).blocked || AnyBlockerAt(g.objects, location)
  }

  /** `move_player`: when the target cell is not blocked the player makes
      its own `move`; otherwise nothing changes. No other object moves. */
  function MovePlayer(g: GameState, direction: Vector): (r: GameState)
    requires g.player < |g.objects|
    ensures IsBlocked(g, Add(g.objects[g.player].location, direction)) ==> r == g
    ensures !IsBlocked(g, Add(g.objects[g.player].location, direction)) ==>
              r == g.(objects := g.objects[g.player := Move(g.objects[g.player], direction)])
  {
    var p := g.objects[g.player];
    if !IsBlocked(g, Add(p.location, direction)) then
      g.(objects := g.objects[g.player := Move(p, direction)])
    else g
  }

  /** When the player moves on the game's own map, it lands on a cell whose
      tile is not blocked and where no other blocking object stands, and
      its location advances by exactly the direction. */
  lemma MovePlayerLandsClear(g: GameState, direction: Vector)
    requires g.player < |g.objects|
    requires g.objects[g.player].gameMap == Some(g.gameMap)
    ensures var r := MovePlayer(g, direction);
            var p := r.objects[g.player];
            p.location == g.objects[g.player].location
            || (p.location == Add(g.objects[g.player].location, direction)
                && !Get(g.gameMap, p.location).blocked
                && forall i :: 0 <= i < |r.objects| && i != g.player && r.objects[i].blocks ==>
                     r.objects[i].location != p.location)
  {
  }

  /** An object shown by `visible_objects`: visible, on a seen cell, and on
      the player's page. */
  predicate Shown(o: Object, seen: set<Vector>, width: int, height: int, playerLocation: Vector)
  {
    o.visible && o.location in seen && InArea(width, height, o.location, playerLocation) == Success(true)
  }

  /** The shown objects in list order: the reference the result is checked against. */
  function ShownInOrder(objects: seq<Object>, seen: set<Vector>, width: int, height: int,
                        playerLocation: Vector): (r: seq<Object>)
    ensures forall o :: o in r <==> o in objects && Shown(o, seen, width, height, playerLocation)
    ensures |r| <= |objects|
  {
    if |objects| == 0 then []
    else
      var last := objects[|objects| - 1];
      ShownInOrder(objects[..|objects| - 1], seen, width, height, playerLocation)
        + (if Shown(last, seen, width, height, playerLocation) then [last] else [])
  }

  function Reverse<T>(s: seq<T>): (r: seq<T>)
    ensures |r| == |s|
    ensures forall i :: 0 <= i < |s| ==> r[i] == s[|s| - 1 - i]
  {
    if |s| == 0 then [] else Reverse(s[1..]) + [s[0]]
  }

  /** An object is a candidate once it is visible and on a seen cell; only
      candidates are tested with `in_area`. */
  predicate Candidate(o: Object, seen: set<Vector>)
  {
    o.visible && o.location in seen
  }

  /** `visible_objects`, with the player's `seen` set passed in: the shown
      objects, last in the list first. `in_area` raises `ValueError` for a
      zero width or height, which happens as soon as one candidate is met. */
  method VisibleObjects(g: GameState, seen: set<Vector>) returns (r: Result<seq<Object>>)
    requires g.player < |g.objects|
    ensures r.Failure? <==>
              (g.width == 0 || g.height == 0) && exists i :: 0 <= i < |g.objects| && Candidate(g.objects[i], seen)
    ensures r.Success? ==> forall o :: o in r.value ==>
              o.visible && o.location in seen
              && InArea(g.width, g.height, o.location, g.objects[g.player].location) == Success(true)
    ensures r.Success? ==> forall o :: o in g.objects ==>
              (Shown(o, seen, g.width, g.height, g.objects[g.player].location) ==> o in r.value)
    ensures r.Success? ==>
              Reverse(r.value) == ShownInOrder(g.objects, seen, g.width, g.height, g.objects[g.player].location)
  {
    var playerLocation := g.objects[g.player].location;
    var res: seq<Object> := [];
    var i := 0;
    while i < |g.objects|
      invariant 0 <= i <= |g.objects|
      invariant res == ShownInOrder(g.objects[..i], seen, g.width, g.height, playerLocation)
      invariant (g.width == 0 || g.height == 0) ==> forall j :: 0 <= j < i ==> !Candidate(g.objects[j], seen)
    {
      var o := g.objects[i];
      assert g.objects[..i + 1][..i] == g.objects[..i];
      if o.visible && o.location in seen {
        var same := InArea(g.width, g.height, o.location, playerLocation);
        if same.Failure? {
          return Failure(same.error);
        }
        if same.value {
          res := res + [o];
        }
      }
      i := i + 1;
    }
    assert g.objects[..i] == g.objects;
    ReverseInvolutive(res);
    ReverseMembers(res);
    return Success(Reverse(res));
  }

  lemma ReverseInvolutive<T>(s: seq<T>)
    ensures Reverse(Reverse(s)) == s
  {
  }

  lemma ReverseMembers<T>(s: seq<T>)
    ensures forall x :: x in Reverse(s) <==> x in s
  {
    forall x | x in s
      ensures x in Reverse(s)
    {
      var i :| 0 <= i < |s| && s[i] == x;
      assert Reverse(s)[|s| - 1 - i] == x;
    }
  }
}

=== FILE: generator.dfy ===
/** `Map.Random` of src/map.py: rooms placed by rejection sampling inside
    an area, each new room joined to the previous one by a corridor. */
module Generator {
  import opened Results
  import opened Geometry
  import opened Tiles
  import opened Grid

  /** The random source: the n-th value drawn. Any function is a possible
      run of the pseudo-random generator. */
  type Stream = nat -> int

  /** `randrange(lo, hi)` answered by draw n of the stream: a value in
      [lo, hi), or `ValueError` when the range is empty. Every value of
      the range is the answer of some stream. */
  function RandRange(rand: Stream, n: nat, lo: int, hi: int): (r: Result<int>)
    ensures r.Failure? <==> hi <= lo
    ensures r.Success? ==> lo <= r.value < hi
    ensures lo <= rand(n) < hi ==> r == Success(rand(n))
  {
    if hi <= lo then Failure(ValueError("empty range for randrange()"))
    else Success(lo + (rand(n) - lo) % (hi - lo))
  }

  /** Whether room intersects any of rooms (the inner `for other_room` loop). */
  function IntersectsAny(room: Rect, rooms: seq<Rect>): (b: bool)
    ensures b <==> exists i :: 0 <= i < |rooms| && Intersects(room, rooms[i])
  {
    if |rooms| == 0 then false
    else IntersectsAny(room, rooms[..|rooms| - 1]) || Intersects(room, rooms[|rooms| - 1])
  }

  /** The guaranteed first room: the max_room_size square around center. */
  function CenterRoom(center: Vector, maxRoomSize: int): (r: Rect)
    ensures Width(r) == maxRoomSize && Height(r) == maxRoomSize
    ensures Center(r) == center
  {
    MakeRect(center.x - maxRoomSize / 2, center.y - maxRoomSize / 2, maxRoomSize, maxRoomSize)
  }

  /** A room accepted by the sampling loop: size drawn from the allowed
      range and lying inside the area. */
  predicate SampledRoom(area: Rect, minRoomSize: int, maxRoomSize: int, room: Rect)
  {
    && minRoomSize <= Width(room) <= maxRoomSize
    && minRoomSize <= Height(room) <= maxRoomSize
    && Contains(area, room)
  }

  /** The room the four draws at p .. p + 3 describe (width, height, x, y,
      in the order the loop draws them), or None when one of their ranges
      is empty. */
  function Candidate(rand: Stream, p: nat, area: Rect, minRoomSize: int, maxRoomSize: int): Option<Rect>
  {
    var rw := RandRange(rand, p, minRoomSize, maxRoomSize + 1);
    var rh := RandRange(rand, p + 1, minRoomSize, maxRoomSize + 1);
    var rx := RandRange(rand, p + 2, area.x1, area.x2);
    var ry := RandRange(rand, p + 3, area.y1, area.y2);
    if rw.Failure? || rh.Failure? || rx.Failure? || ry.Failure? then None
    else Some(MakeRect(rx.value, ry.value, rw.value, rh.value))
  }

  /** The loop rejects a room that leaves the area or meets an earlier room. */
  predicate Rejected(room: Rect, area: Rect, rooms: seq<Rect>)
  {
    !Contains(area, room) || IntersectsAny(room, rooms)
  }

  /** The candidate drawn t passes before stream position p, each pass
      making four draws. */
  function CandidateBefore(rand: Stream, p: nat, t: nat, area: Rect, minRoomSize: int, maxRoomSize: int)
    : Option<Rect>
    requires 4 * t <= p
  {
    Candidate(rand, p - 4 * t, area, minRoomSize, maxRoomSize)
  }

  /** The k candidates drawn just before stream position p were all drawn
      and all rejected against rooms. */
  ghost predicate RejectedRun(rand: Stream, p: nat, k: nat, area: Rect, minRoomSize: int, maxRoomSize: int,
                              rooms: seq<Rect>)
  {
    && 4 * k <= p
    && forall t: nat :: 1 <= t <= k ==>
         && CandidateBefore(rand, p, t, area, minRoomSize, maxRoomSize).Some?
         && Rejected(CandidateBefore(rand, p, t, area, minRoomSize, maxRoomSize).value, area, rooms)
  }

  /** A rejected candidate at p extends a run of rejections ending at p. */
  lemma RejectionStep(rand: Stream, p: nat, p': nat, k: nat, area: Rect, minRoomSize: int, maxRoomSize: int,
                      rooms: seq<Rect>)
    requires p' == p + 4
    requires RejectedRun(rand, p, k, area, minRoomSize, maxRoomSize, rooms)
    requires Candidate(rand, p, area, minRoomSize, maxRoomSize).Some?
    requires Rejected(Candidate(rand, p, area, minRoomSize, maxRoomSize).value, area, rooms)
    ensures RejectedRun(rand, p', k + 1, area, minRoomSize, maxRoomSize, rooms)
  {
    forall t: nat | 1 <= t <= k + 1
      ensures CandidateBefore(rand, p', t, area, minRoomSize, maxRoomSize).Some?
      ensures Rejected(CandidateBefore(rand, p', t, area, minRoomSize, maxRoomSize).value, area, rooms)
    {
      if t > 1 {
        assert CandidateBefore(rand, p', t, area, minRoomSize, maxRoomSize)
            == CandidateBefore(rand, p, t - 1, area, minRoomSize, maxRoomSize);
      }
    }
  }

  /** Stream position where the passes after the i-th accepted room start:
      0 before any room is accepted, otherwise just past the tunnel-width
      draw of accepted room i (whose four room draws began at accepts[i - 1]). */
  function StartAfter(accepts: seq<nat>, i: nat): nat
    requires i <= |accepts|
  {
    if i == 0 then 0 else accepts[i - 1] + 5
  }

  /** One accepted room and the passes before it: starting at `from`, fewer
      than timeout candidates were drawn and rejected against the rooms
      placed so far, then the candidate drawn at `at` is room, it is not
      rejected, and the next draw gives the tunnel width tw. */
  ghost predicate Placed(rand: Stream, area: Rect, minRoomSize: int, maxRoomSize: int, timeout: int,
                         from: nat, at: nat, placed: seq<Rect>, room: Rect, tw: int)
  {
    && from <= at && (at - from) % 4 == 0 && (at - from) / 4 < timeout
    && RejectedRun(rand, at, (at - from) / 4, area, minRoomSize, maxRoomSize, placed)
    && Candidate(rand, at, area, minRoomSize, maxRoomSize) == Some(room)
    && !Rejected(room, area, placed)
    && RandRange(rand, at + 4, 2, 3 + Width(room) / 4) == Success(tw)
  }

  /** The first i accepted rooms rooms[1 .. i] were drawn at the stream
      positions accepts[0 .. i - 1], with tunnel widths tws[1 .. i]. */
  ghost predicate Traced(rand: Stream, area: Rect, minRoomSize: int, maxRoomSize: int, timeout: int,
                         rooms: seq<Rect>, tws: seq<int>, accepts: seq<nat>, i: nat)
    requires i <= |accepts| && |accepts| < |rooms| <= |tws|
    decreases i
  {
    i == 0 ||
    (&& Traced(rand, area, minRoomSize, maxRoomSize, timeout, rooms, tws, accepts, i - 1)
     && Placed(rand, area, minRoomSize, maxRoomSize, timeout, StartAfter(accepts, i - 1), accepts[i - 1],
               rooms[..i], rooms[i], tws[i]))
  }

  /** The draws of a whole run of the generator loop that stopped at stream
      position final: every room after the first was drawn where accepts
      says, and after the last one the candidates up to final were all
      rejected. There are exactly timeout of them when the loop ran out of
      retries (exhausted), and fewer otherwise. */
  ghost predicate Run(rand: Stream, area: Rect, minRoomSize: int, maxRoomSize: int, timeout: int,
                      rooms: seq<Rect>, tws: seq<int>, accepts: seq<nat>, final: nat, exhausted: bool)
  {
    && |accepts| + 1 == |rooms| <= |tws|
    && Traced(rand, area, minRoomSize, maxRoomSize, timeout, rooms, tws, accepts, |accepts|)
    && Tail(rand, area, minRoomSize, maxRoomSize, timeout, rooms, StartAfter(accepts, |accepts|), final, exhausted)
  }

  /** The passes from start to final drew only rejected candidates: exactly
      timeout of them when exhausted, fewer otherwise. */
  ghost predicate Tail(rand: Stream, area: Rect, minRoomSize: int, maxRoomSize: int, timeout: int,
                       rooms: seq<Rect>, start: nat, final: nat, exhausted: bool)
  {
    && start <= final && (final - start) % 4 == 0
    && RejectedRun(rand, final, (final - start) / 4, area, minRoomSize, maxRoomSize, rooms)
    && (if exhausted then final - start == 4 * timeout else final - start < 4 * timeout)
  }

  /** One more rejected candidate lengthens a tail by one pass. */
  lemma TailRejects(rand: Stream, area: Rect, minRoomSize: int, maxRoomSize: int, timeout: int,
                    rooms: seq<Rect>, start: nat, n: nat, n': nat)
    requires Tail(rand, area, minRoomSize, maxRoomSize, timeout, rooms, start, n, false) && n' == n + 4
    requires Candidate(rand, n, area, minRoomSize, maxRoomSize).Some?
    requires Rejected(Candidate(rand, n, area, minRoomSize, maxRoomSize).value, area, rooms)
    ensures Tail(rand, area, minRoomSize, maxRoomSize, timeout, rooms, start, n', n' - start == 4 * timeout)
  {
    var k := (n - start) / 4;
    assert (n' - start) / 4 == k + 1 && (n' - start) % 4 == 0;
    RejectionStep(rand, n, n', k, area, minRoomSize, maxRoomSize, rooms);
  }

  /** Earlier accepted rooms keep their record when rooms, widths and
      positions only grow past them. */
  lemma {:induction false} TracedGrows(rand: Stream, area: Rect, minRoomSize: int, maxRoomSize: int, timeout: int,
                                       rooms: seq<Rect>, tws: seq<int>, accepts: seq<nat>,
                                       rooms': seq<Rect>, tws': seq<int>, accepts': seq<nat>, i: nat)
    requires i <= |accepts| && |accepts| < |rooms| <= |tws|
    requires i <= |accepts'| && |accepts'| < |rooms'| <= |tws'|
    requires forall j :: 0 <= j <= i ==> rooms'[j] == rooms[j] && tws'[j] == tws[j]
    requires forall j :: 0 <= j < i ==> accepts'[j] == accepts[j]
    requires Traced(rand, area, minRoomSize, maxRoomSize, timeout, rooms, tws, accepts, i)
    ensures Traced(rand, area, minRoomSize, maxRoomSize, timeout, rooms', tws', accepts', i)
  {
    if i > 0 {
      TracedGrows(rand, area, minRoomSize, maxRoomSize, timeout, rooms, tws, accepts, rooms', tws', accepts', i - 1);
      assert rooms'[..i] == rooms[..i];
      assert StartAfter(accepts', i - 1) == StartAfter(accepts, i - 1);
    }
  }

  /** Before the loop: no room accepted, no candidate drawn. */
  lemma RunStarts(rand: Stream, area: Rect, minRoomSize: int, maxRoomSize: int, timeout: int, rooms: seq<Rect>,
                  tws: seq<int>)
    requires timeout >= 1 && |rooms| == 1 <= |tws|
    ensures Run(rand, area, minRoomSize, maxRoomSize, timeout, rooms, tws, [], 0, false)
  {
  }

  /** A rejected candidate at the run's end lengthens the tail of
      rejections by one; the run is exhausted when that tail reaches
      timeout. */
  lemma RunRejects(rand: Stream, area: Rect, minRoomSize: int, maxRoomSize: int, timeout: int,
                   rooms: seq<Rect>, tws: seq<int>, accepts: seq<nat>, n: nat, n': nat)
    requires Run(rand, area, minRoomSize, maxRoomSize, timeout, rooms, tws, accepts, n, false) && n' == n + 4
    requires Candidate(rand, n, area, minRoomSize, maxRoomSize).Some?
    requires Rejected(Candidate(rand, n, area, minRoomSize, maxRoomSize).value, area, rooms)
    ensures Run(rand, area, minRoomSize, maxRoomSize, timeout, rooms, tws, accepts, n',
                n' - StartAfter(accepts, |accepts|) == 4 * timeout)
  {
    TailRejects(rand, area, minRoomSize, maxRoomSize, timeout, rooms, StartAfter(accepts, |accepts|), n, n');
  }

  /** An accepted candidate at the run's end, with its tunnel width drawn
      next, becomes the run's last accepted room; the tail of rejections
      starts afresh. */
  lemma RunAccepts(rand: Stream, area: Rect, minRoomSize: int, maxRoomSize: int, timeout: int,
                   rooms: seq<Rect>, tws: seq<int>, accepts: seq<nat>, n: nat,
                   room: Rect, tw: int, rooms': seq<Rect>, tws': seq<int>, accepts': seq<nat>, n': nat)
    requires Run(rand, area, minRoomSize, maxRoomSize, timeout, rooms, tws, accepts, n, false)
    requires |tws| == |rooms|
    requires Candidate(rand, n, area, minRoomSize, maxRoomSize) == Some(room) && !Rejected(room, area, rooms)
    requires RandRange(rand, n + 4, 2, 3 + Width(room) / 4) == Success(tw)
    requires rooms' == rooms + [room] && tws' == tws + [tw] && accepts' == accepts + [n] && n' == n + 5
    ensures Run(rand, area, minRoomSize, maxRoomSize, timeout, rooms', tws', accepts', n', false)
  {
    var i := |accepts|;
    assert Traced(rand, area, minRoomSize, maxRoomSize, timeout, rooms', tws', accepts', i) by {
      TracedGrows(rand, area, minRoomSize, maxRoomSize, timeout, rooms, tws, accepts, rooms', tws', accepts', i);
    }
    assert Placed(rand, area, minRoomSize, maxRoomSize, timeout, StartAfter(accepts', i), accepts'[i],
                  rooms'[..i + 1], rooms'[i + 1], tws'[i + 1]) by {
      assert rooms'[..i + 1] == rooms && rooms'[i + 1] == room && tws'[i + 1] == tw && accepts'[i] == n;
      assert StartAfter(accepts', i) == StartAfter(accepts, i);
    }
    assert StartAfter(accepts', i + 1) == n';
  }

  /** What a run says about its draws, one accepted room at a time: room
      i + 1 is the candidate drawn at accepts[i] and tws[i + 1] its tunnel
      width; the positions increase with at least the five draws of an
      accepted room between them; and an exhausted run ends with timeout
      rejected candidates. */
  lemma {:induction false} RunDraws(rand: Stream, area: Rect, minRoomSize: int, maxRoomSize: int, timeout: int,
                                    rooms: seq<Rect>, tws: seq<int>, accepts: seq<nat>, i: nat)
    requires i <= |accepts| && |accepts| < |rooms| <= |tws|
    requires Traced(rand, area, minRoomSize, maxRoomSize, timeout, rooms, tws, accepts, i)
    ensures forall j :: 0 <= j < i ==> Candidate(rand, accepts[j], area, minRoomSize, maxRoomSize) == Some(rooms[j + 1])
    ensures forall j :: 0 <= j < i ==> RandRange(rand, accepts[j] + 4, 2, 3 + Width(rooms[j + 1]) / 4) == Success(tws[j + 1])
    ensures forall j :: 0 < j < i ==> accepts[j - 1] + 5 <= accepts[j]
  {
    if i > 0 {
      RunDraws(rand, area, minRoomSize, maxRoomSize, timeout, rooms, tws, accepts, i - 1);
      assert Placed(rand, area, minRoomSize, maxRoomSize, timeout, StartAfter(accepts, i - 1), accepts[i - 1],
                    rooms[..i], rooms[i], tws[i]);
      forall j | 0 <= j < i
        ensures Candidate(rand, accepts[j], area, minRoomSize, maxRoomSize) == Some(rooms[j + 1])
        ensures RandRange(rand, accepts[j] + 4, 2, 3 + Width(rooms[j + 1]) / 4) == Success(tws[j + 1])
      {
      }
      forall j | 0 < j < i
        ensures accepts[j - 1] + 5 <= accepts[j]
      {
        if j == i - 1 {
          assert StartAfter(accepts, i - 1) == accepts[j - 1] + 5;
        }
      }
    }
  }

  /** An exhausted run ends with timeout rejected candidates just before final. */
  lemma RunExhausted(rand: Stream, area: Rect, minRoomSize: int, maxRoomSize: int, timeout: int,
                     rooms: seq<Rect>, tws: seq<int>, accepts: seq<nat>, final: nat)
    requires timeout >= 0
    requires Run(rand, area, minRoomSize, maxRoomSize, timeout, rooms, tws, accepts, final, true)
    ensures RejectedRun(rand, final, timeout, area, minRoomSize, maxRoomSize, rooms)
  {
    var start := StartAfter(accepts, |accepts|);
    assert Tail(rand, area, minRoomSize, maxRoomSize, timeout, rooms, start, final, true);
    assert (final - start) / 4 == timeout;
  }

  /** The rooms every successful run produces: the center room first; every
      later room sampled, inside the area and clear of all earlier rooms. */
  predicate GeneratedRooms(rooms: seq<Rect>, area: Rect, minRoomSize: int, maxRoomSize: int, center: Vector)
  {
    && |rooms| >= 1
    && rooms[0] == CenterRoom(center, maxRoomSize)
    && (forall i :: 1 <= i < |rooms| ==> SampledRoom(area, minRoomSize, maxRoomSize, rooms[i]))
    && (forall i, j :: 0 <= j < i < |rooms| ==> !Intersects(rooms[i], rooms[j]))
  }

  /** Every stored cell holds roomTile, and every cell of every room is stored. */
  ghost predicate CarvedWith(m: GameMap, roomTile: Tile)
  {
    && (forall k :: k in m.grid ==> m.grid[k] == roomTile)
    && (forall i, k :: 0 <= i < |m.rooms| && InRect(m.rooms[i], k) ==> k in m.grid)
  }

  /** Cell k lies on the L-shaped corridor of width tw from a to b. */
  predicate InCorridor(a: Vector, b: Vector, tw: int, k: Vector)
  {
    InRect(HorizontalBar(a, b, tw), k) || InRect(VerticalBar(a, b, tw), k)
  }

  /** Every cell of the L-shaped corridor of width tw from a to b is stored. */
  ghost predicate CorridorCarved(m: GameMap, a: Vector, b: Vector, tw: int)
  {
    forall k :: InCorridor(a, b, tw, k) ==> k in m.grid
  }

  /** Whether k is a cell of some room. */
  function InAnyRoom(rooms: seq<Rect>, k: Vector): (b: bool)
    ensures b <==> exists i :: 0 <= i < |rooms| && InRect(rooms[i], k)
  {
    if |rooms| == 0 then false
    else InAnyRoom(rooms[..|rooms| - 1], k) || InRect(rooms[|rooms| - 1], k)
  }

  /** Whether k lies on one of the first n - 1 corridors, corridor i
      running from cs[i - 1] to cs[i] with width tws[i]. */
  function InAnyCorridor(cs: seq<Vector>, tws: seq<int>, n: nat, k: Vector): (b: bool)
    requires n <= |cs| && n <= |tws|
    ensures b <==> exists i :: 1 <= i < n && InCorridor(cs[i - 1], cs[i], tws[i], k)
    decreases n
  {
    if n < 2 then false
    else InAnyCorridor(cs, tws, n - 1, k) || InCorridor(cs[n - 2], cs[n - 1], tws[n - 1], k)
  }

  /** The centers of the rooms, in room order. */
  function Centers(rooms: seq<Rect>): (cs: seq<Vector>)
    ensures |cs| == |rooms| && forall i :: 0 <= i < |rooms| ==> cs[i] == Center(rooms[i])
  {
    if |rooms| == 0 then [] else Centers(rooms[..|rooms| - 1]) + [Center(rooms[|rooms| - 1])]
  }

  /** Nothing is carved but rooms and corridors: every stored cell is a cell
      of some room or lies on one of the recorded corridors. */
  ghost predicate Bounded(m: GameMap, tws: seq<int>, cs: seq<Vector>)
  {
    && |cs| <= |tws|
    && forall k :: k in m.grid ==> InAnyRoom(m.rooms, k) || InAnyCorridor(cs, tws, |cs|, k)
  }

  /** The layout of a generated map with corridor widths tws: room i > 0 is
      joined to the center of room i - 1 by a carved corridor of width
      tws[i] drawn for it, and no cell off the rooms and those corridors is
      carved, so every other cell still reads `default`. */
  ghost predicate LaidOut(m: GameMap, tws: seq<int>)
  {
    && |tws| == |m.rooms|
    && (forall i :: 1 <= i < |m.rooms| ==>
          TunnelWidth(m.rooms[i], tws[i]) && CorridorCarved(m, Center(m.rooms[i - 1]), Center(m.rooms[i]), tws[i]))
    && Bounded(m, tws, Centers(m.rooms))
  }

  /** A tunnel width `randrange(2, 3 + w // 4)` can give for a room of width w. */
  predicate TunnelWidth(room: Rect, tw: int)
  {
    2 <= tw < 3 + Width(room) / 4
  }

  /** Every room after the first is joined to the center of the room before
      it by a carved corridor of a width drawn for that room. */
  ghost predicate JoinedByCorridors(m: GameMap)
  {
    forall i :: 1 <= i < |m.rooms| ==> JoinedAt(m, i)
  }

  /** Room i is joined to room i - 1 by a corridor of some width drawn for room i. */
  ghost predicate JoinedAt(m: GameMap, i: int)
    requires 1 <= i < |m.rooms|
  {
    exists tw :: TunnelWidth(m.rooms[i], tw) && CorridorCarved(m, Center(m.rooms[i - 1]), Center(m.rooms[i]), tw)
  }

  /** The first n rooms have centers cs and are joined in order, room i
      to room i - 1 by a corridor of the recorded width tws[i]. */
  ghost predicate Chained(m: GameMap, tws: seq<int>, cs: seq<Vector>, n: nat)
    requires n <= |m.rooms| && n <= |tws| && n <= |cs|
    decreases n
  {
    if n == 0 then true
    else if n == 1 then cs[0] == Center(m.rooms[0])
    else
      && Chained(m, tws, cs, n - 1)
      && cs[n - 1] == Center(m.rooms[n - 1])
      && TunnelWidth(m.rooms[n - 1], tws[n - 1])
      && CorridorCarved(m, cs[n - 2], cs[n - 1], tws[n - 1])
  }

  lemma {:induction false} ChainedJoins(m: GameMap, tws: seq<int>, cs: seq<Vector>, n: nat)
    requires n <= |m.rooms| && n <= |tws| && n <= |cs|
    requires Chained(m, tws, cs, n)
    ensures forall i :: 0 <= i < n ==> cs[i] == Center(m.rooms[i])
    ensures forall i :: 1 <= i < n ==> TunnelWidth(m.rooms[i], tws[i]) && CorridorCarved(m, cs[i - 1], cs[i], tws[i])
  {
    if n > 1 {
      ChainedJoins(m, tws, cs, n - 1);
      forall i | 1 <= i < n
        ensures TunnelWidth(m.rooms[i], tws[i]) && CorridorCarved(m, cs[i - 1], cs[i], tws[i])
      {
      }
    }
  }

  /** A chain survives growing the grid, and changing rooms, widths or
      centers past its end. */
  lemma {:induction false} ChainedGrows(m: GameMap, m': GameMap, tws: seq<int>, tws': seq<int>,
                                        cs: seq<Vector>, cs': seq<Vector>, n: nat)
    requires n <= |m.rooms| && n <= |tws| && n <= |cs| && n <= |m'.rooms| && n <= |tws'| && n <= |cs'|
    requires forall i :: 0 <= i < n ==> m'.rooms[i] == m.rooms[i] && tws'[i] == tws[i] && cs'[i] == cs[i]
    requires forall k :: k in m.grid ==> k in m'.grid
    requires Chained(m, tws, cs, n)
    ensures Chained(m', tws', cs', n)
  {
    if n > 1 {
      ChainedGrows(m, m', tws, tws', cs, cs', n - 1);
      assert m'.rooms[n - 1] == m.rooms[n - 1] && tws'[n - 1] == tws[n - 1];
      assert cs'[n - 2] == cs[n - 2] && cs'[n - 1] == cs[n - 1];
    }
  }

  /** The corridor endpoint the generator computes for a new room,
      (x + w // 2, y + h // 2), is that room's `Rect.center()`. */
  lemma CenterOfRoom(x: int, y: int, w: int, h: int)
    ensures Center(MakeRect(x, y, w, h)) == Vector(x + w / 2, y + h / 2)
  {
  }

  /** A sampled room clear of every earlier room may be appended. */
  lemma GeneratedRoomsExtend(rooms: seq<Rect>, room: Rect, area: Rect, minRoomSize: int, maxRoomSize: int,
                             center: Vector)
    requires GeneratedRooms(rooms, area, minRoomSize, maxRoomSize, center)
    requires SampledRoom(area, minRoomSize, maxRoomSize, room) && !IntersectsAny(room, rooms)
    ensures GeneratedRooms(rooms + [room], area, minRoomSize, maxRoomSize, center)
  {
    var rooms' := rooms + [room];
    forall i, j | 0 <= j < i < |rooms'|
      ensures !Intersects(rooms'[i], rooms'[j])
    {
      if i == |rooms| {
        assert rooms'[i] == room && rooms'[j] == rooms[j];
      } else {
        assert rooms'[i] == rooms[i] && rooms'[j] == rooms[j];
      }
    }
  }

  /** One more link: room n centered at cs[n] and joined to room n - 1;
      the chain then covers n' == n + 1 rooms. */
  lemma ChainedStep(m: GameMap, tws: seq<int>, cs: seq<Vector>, n: nat, n': nat)
    requires 1 <= n < |m.rooms| && n < |tws| && n < |cs| && n' == n + 1
    requires Chained(m, tws, cs, n)
    requires cs[n] == Center(m.rooms[n]) && TunnelWidth(m.rooms[n], tws[n])
    requires CorridorCarved(m, cs[n - 1], cs[n], tws[n])
    ensures Chained(m, tws, cs, n')
  {
  }

  /** The generator's first room is centered on the requested center: the
      chain of one room starts there. */
  lemma ChainStarts(m: GameMap, center: Vector, maxRoomSize: int)
    requires |m.rooms| == 1 && m.rooms[0] == CenterRoom(center, maxRoomSize)
    ensures Chained(m, [0], [center], 1)
  {
  }

  /** The generator's first room is all that is carved before the loop, so
      nothing lies outside it. */
  lemma BoundedStarts(m: GameMap, center: Vector)
    requires |m.rooms| == 1 && forall k :: k in m.grid ==> InRect(m.rooms[0], k)
    ensures Bounded(m, [0], [center])
  {
    forall k | k in m.grid
      ensures InAnyRoom(m.rooms, k)
    {
      assert InRect(m.rooms[0], k);
    }
  }

  /** Carving a new room and the corridor from the last center c0 to its
      center c keeps every stored cell on a room or a recorded corridor,
      once the new width and center are recorded. */
  lemma {:induction false} BoundedExtend(m: GameMap, m': GameMap, tws: seq<int>, cs: seq<Vector>,
                                         room: Rect, c: Vector, tw: int, tws': seq<int>, cs': seq<Vector>)
    requires |tws| == |cs| == |m.rooms| >= 1 && Bounded(m, tws, cs)
    requires m'.rooms == m.rooms + [room]
    requires forall k :: k in m'.grid ==> k in m.grid || InRect(room, k) || InCorridor(cs[|cs| - 1], c, tw, k)
    requires tws' == tws + [tw] && cs' == cs + [c]
    ensures Bounded(m', tws', cs')
  {
    var n := |cs|;
    forall k | k in m'.grid
      ensures InAnyRoom(m'.rooms, k) || InAnyCorridor(cs', tws', |cs'|, k)
    {
      if k in m.grid && InAnyRoom(m.rooms, k) {
        var i :| 0 <= i < |m.rooms| && InRect(m.rooms[i], k);
        assert m'.rooms[i] == m.rooms[i];
      } else if k in m.grid {
        assert InAnyCorridor(cs, tws, n, k);
        var i :| 1 <= i < n && InCorridor(cs[i - 1], cs[i], tws[i], k);
        assert cs'[i - 1] == cs[i - 1] && cs'[i] == cs[i] && tws'[i] == tws[i];
      } else if InRect(room, k) {
        assert m'.rooms[n] == room;
      } else {
        assert cs'[n - 1] == cs[n - 1] && cs'[n] == c && tws'[n] == tw;
      }
    }
  }

  /** A complete chain whose corridors and rooms hold every stored cell is
      the layout of the map. */
  lemma LaidOutFromChain(m: GameMap, tws: seq<int>, cs: seq<Vector>)
    requires |tws| == |cs| == |m.rooms| && Chained(m, tws, cs, |m.rooms|) && Bounded(m, tws, cs)
    ensures LaidOut(m, tws) && JoinedByCorridors(m)
  {
    ChainedJoins(m, tws, cs, |m.rooms|);
    assert cs == Centers(m.rooms);
    forall i | 1 <= i < |m.rooms|
      ensures JoinedAt(m, i)
    {
      assert TunnelWidth(m.rooms[i], tws[i]) && CorridorCarved(m, Center(m.rooms[i - 1]), Center(m.rooms[i]), tws[i]);
    }
  }

  /** On a laid-out map a cell off every room and every corridor was never
      carved: it reads the default tile. */
  lemma LaidOutReads(m: GameMap, tws: seq<int>, k: Vector)
    requires LaidOut(m, tws)
    requires forall i :: 0 <= i < |m.rooms| ==> !InRect(m.rooms[i], k)
    requires forall i :: 1 <= i < |m.rooms| ==> !InCorridor(Center(m.rooms[i - 1]), Center(m.rooms[i]), tws[i], k)
    ensures k !in m.grid && Get(m, k) == m.default
  {
    var cs := Centers(m.rooms);
    forall i | 1 <= i < |cs|
      ensures !InCorridor(cs[i - 1], cs[i], tws[i], k)
    {
      assert cs[i - 1] == Center(m.rooms[i - 1]) && cs[i] == Center(m.rooms[i]);
    }
    assert !InAnyRoom(m.rooms, k) && !InAnyCorridor(cs, tws, |cs|, k);
  }

  /** The link a new room adds: its center is the corridor's far end, its
      width admits the drawn tunnel width, and the corridor is carved. */
  lemma LastLink(m: GameMap, m': GameMap, tws: seq<int>, cs: seq<Vector>,
                 x: int, y: int, w: int, h: int, tw: int, tws': seq<int>, cs': seq<Vector>)
    requires |tws| == |cs| == |m.rooms| >= 1
    requires m'.rooms == m.rooms + [MakeRect(x, y, w, h)]
    requires TunnelWidth(MakeRect(x, y, w, h), tw)
    requires CorridorCarved(m', cs[|cs| - 1], Vector(x + w / 2, y + h / 2), tw)
    requires tws' == tws + [tw] && cs' == cs + [Vector(x + w / 2, y + h / 2)]
    ensures cs'[|m.rooms|] == Center(m'.rooms[|m.rooms|])
    ensures TunnelWidth(m'.rooms[|m.rooms|], tws'[|m.rooms|])
    ensures CorridorCarved(m', cs'[|m.rooms| - 1], cs'[|m.rooms|], tws'[|m.rooms|])
  {
    var n := |m.rooms|;
    CenterOfRoom(x, y, w, h);
    assert m'.rooms[n] == MakeRect(x, y, w, h);
    assert cs'[n - 1] == cs[|cs| - 1] && cs'[n] == Vector(x + w / 2, y + h / 2) && tws'[n] == tw;
  }

  /** Adding room `MakeRect(x, y, w, h)` with a corridor from the last
      center to (x + w // 2, y + h // 2) extends the chain by one: that
      point is the new room's center. */
  lemma ChainedExtend(m: GameMap, m': GameMap, tws: seq<int>, cs: seq<Vector>,
                      x: int, y: int, w: int, h: int, tw: int, tws': seq<int>, cs': seq<Vector>)
    requires |tws| == |cs| == |m.rooms| >= 1 && Chained(m, tws, cs, |m.rooms|)
    requires m'.rooms == m.rooms + [MakeRect(x, y, w, h)]
    requires forall k :: k in m.grid ==> k in m'.grid
    requires TunnelWidth(MakeRect(x, y, w, h), tw)
    requires CorridorCarved(m', cs[|cs| - 1], Vector(x + w / 2, y + h / 2), tw)
    requires tws' == tws + [tw] && cs' == cs + [Vector(x + w / 2, y + h / 2)]
    ensures Chained(m', tws', cs', |m'.rooms|)
  {
    var n := |m.rooms|;
    assert Chained(m', tws', cs', n) by {
      ChainedGrows(m, m', tws, tws', cs, cs', n);
    }
    assert && cs'[n] == Center(m'.rooms[n])
           && TunnelWidth(m'.rooms[n], tws'[n])
           && CorridorCarved(m', cs'[n - 1], cs'[n], tws'[n]) by {
      LastLink(m, m', tws, cs, x, y, w, h, tw, tws', cs');
    }
    ChainedStep(m', tws', cs', n, |m'.rooms|);
  }

  /** One accepted room: `set_rect(new_room, room_tile, True)` followed by
      `set_connection(from, to, tw, room_tile)`. The room is recorded, no
      cell is lost, everything stored is still room tile, and the corridor
      is carved. The tunnel width is drawn before carving here; the draw
      does not depend on the map, and a failed draw discards the map. */
  method CarveRoom(m: GameMap, room: Rect, from: Vector, to: Vector, tw: int, roomTile: Tile)
    returns (r: GameMap)
    requires CarvedWith(m, roomTile)
    ensures r.rooms == m.rooms + [room] && r.default == m.default
    ensures forall k :: k in m.grid ==> k in r.grid
    ensures CarvedWith(r, roomTile)
    ensures CorridorCarved(r, from, to, tw)
    ensures forall k :: k in r.grid ==> k in m.grid || InRect(room, k) || InCorridor(from, to, tw, k)
  {
    r := SetRect(m, room, roomTile, true);
    r := SetConnection(r, from, to, tw, roomTile);
  }

  /** The accepted-room branch of the generator loop: carve the room and
      its corridor from the last center to (x + w // 2, y + h // 2). The
      rooms stay generated and carved, and the chain of corridors grows by
      the new link; the ghost outputs record its widths and centers. */
  method AcceptRoom(m: GameMap, x: int, y: int, w: int, h: int, lastCenter: Vector, tw: int,
                    roomTile: Tile, area: Rect, minRoomSize: int, maxRoomSize: int, center: Vector,
                    ghost tws: seq<int>, ghost cs: seq<Vector>)
    returns (r: GameMap, ghost tws': seq<int>, ghost cs': seq<Vector>)
    requires GeneratedRooms(m.rooms, area, minRoomSize, maxRoomSize, center)
    requires SampledRoom(area, minRoomSize, maxRoomSize, MakeRect(x, y, w, h))
    requires !IntersectsAny(MakeRect(x, y, w, h), m.rooms)
    requires CarvedWith(m, roomTile)
    requires |tws| == |cs| == |m.rooms| && lastCenter == cs[|cs| - 1] && Chained(m, tws, cs, |m.rooms|)
    requires Bounded(m, tws, cs)
    requires TunnelWidth(MakeRect(x, y, w, h), tw)
    ensures r.default == m.default && r.rooms == m.rooms + [MakeRect(x, y, w, h)]
    ensures GeneratedRooms(r.rooms, area, minRoomSize, maxRoomSize, center)
    ensures CarvedWith(r, roomTile)
    ensures |tws'| == |cs'| == |r.rooms| && cs'[|cs'| - 1] == Vector(x + w / 2, y + h / 2)
    ensures tws' == tws + [tw]
    ensures Chained(r, tws', cs', |r.rooms|)
    ensures Bounded(r, tws', cs')
  {
    var room := MakeRect(x, y, w, h);
    var roomCenter := Vector(x + w / 2, y + h / 2);
    r := CarveRoom(m, room, lastCenter, roomCenter, tw, roomTile);
    GeneratedRoomsExtend(m.rooms, room, area, minRoomSize, maxRoomSize, center);
    tws', cs' := tws + [tw], cs + [roomCenter];
    ChainedExtend(m, r, tws, cs, x, y, w, h, tw, tws', cs');
    BoundedExtend(m, r, tws, cs, room, roomCenter, tw, tws', cs');
  }

  /** What every pass of the generator loop keeps of the map: the rooms
      are generated and carved, the last recorded center is lastCenter, the
      chain of corridors covers every room, and nothing else is carved. */
  ghost predicate Generating(m: GameMap, tws: seq<int>, cs: seq<Vector>, lastCenter: Vector, roomTile: Tile,
                             area: Rect, minRoomSize: int, maxRoomSize: int, center: Vector)
  {
    && GeneratedRooms(m.rooms, area, minRoomSize, maxRoomSize, center)
    && CarvedWith(m, roomTile)
    && |tws| == |cs| == |m.rooms| >= 1 && lastCenter == cs[|cs| - 1]
    && Chained(m, tws, cs, |m.rooms|)
    && Bounded(m, tws, cs)
  }

  /** The four draws of one pass and the rejection test (src/map.py:154-171):
      the candidate room, or a `ValueError` when the range of a draw is
      empty, and whether the loop rejects the candidate. */
  method DrawRoom(rand: Stream, n: nat, area: Rect, minRoomSize: int, maxRoomSize: int, rooms: seq<Rect>)
    returns (r: Result<Rect>, rejected: bool)
    ensures r.Failure? <==> minRoomSize > maxRoomSize || area.x2 <= area.x1 || area.y2 <= area.y1
    ensures r.Failure? <==> Candidate(rand, n, area, minRoomSize, maxRoomSize).None?
    ensures r.Success? ==> Candidate(rand, n, area, minRoomSize, maxRoomSize) == Some(r.value)
    ensures r.Success? ==> minRoomSize <= Width(r.value) <= maxRoomSize && minRoomSize <= Height(r.value) <= maxRoomSize
    ensures r.Success? ==> (rejected <==> Rejected(r.value, area, rooms))
  {
    var rw := RandRange(rand, n, minRoomSize, maxRoomSize + 1);
    var rh := RandRange(rand, n + 1, minRoomSize, maxRoomSize + 1);
    var rx := RandRange(rand, n + 2, area.x1, area.x2);
    var ry := RandRange(rand, n + 3, area.y1, area.y2);
    if rw.Failure? || rh.Failure? || rx.Failure? || ry.Failure? {
      return Failure(ValueError("empty range for randrange()")), false;
    }
    var room := MakeRect(rx.value, ry.value, rw.value, rh.value);
    rejected := false;
    if !Contains(area, room) {
      rejected := true;
    } else {
      rejected := IntersectsAny(room, rooms);
    }
    return Success(room), rejected;
  }

  /** The accepted-room branch with its tunnel-width draw at stream
      position n: `randrange(2, 3 + w // 4)` fails only for a negative
      width; otherwise the room and its corridor of the drawn width are
      carved and the loop invariant is kept. */
  method PlaceRoom(m: GameMap, x: int, y: int, w: int, h: int, n: nat, lastCenter: Vector, roomTile: Tile,
                   area: Rect, minRoomSize: int, maxRoomSize: int, center: Vector, rand: Stream,
                   ghost tws: seq<int>, ghost cs: seq<Vector>)
    returns (r: Result<GameMap>, ghost tws': seq<int>, ghost cs': seq<Vector>)
    requires Generating(m, tws, cs, lastCenter, roomTile, area, minRoomSize, maxRoomSize, center)
    requires SampledRoom(area, minRoomSize, maxRoomSize, MakeRect(x, y, w, h))
    requires !IntersectsAny(MakeRect(x, y, w, h), m.rooms)
    ensures r.Failure? <==> w < 0
    ensures r.Success? ==> r.value.default == m.default && r.value.rooms == m.rooms + [MakeRect(x, y, w, h)]
    ensures r.Success? ==>
              Generating(r.value, tws', cs', Vector(x + w / 2, y + h / 2), roomTile, area, minRoomSize, maxRoomSize, center)
    ensures r.Success? ==>
              |tws'| == |tws| + 1 && tws' == tws + [tws'[|tws|]] && RandRange(rand, n, 2, 3 + w / 4) == Success(tws'[|tws|])
  {
    var tunnel := RandRange(rand, n, 2, 3 + w / 4);
    if tunnel.Failure? {
      return Failure(ValueError("empty range for randrange()")), tws, cs;
    }
    var m';
    m', tws', cs' := AcceptRoom(m, x, y, w, h, lastCenter, tunnel.value, roomTile,
                                area, minRoomSize, maxRoomSize, center, tws, cs);
    return Success(m'), tws', cs';
  }

  /** One pass of the loop extends the run: a rejected candidate lengthens
      the current tail, an accepted one closes it and starts a new one. */
  lemma RunAfterAttempt(rand: Stream, area: Rect, minRoomSize: int, maxRoomSize: int, timeout: int,
                        rooms: seq<Rect>, tws: seq<int>, accepts: seq<nat>, n: nat, retries: int,
                        rooms': seq<Rect>, tws': seq<int>, n': nat, retries': int)
    returns (accepts': seq<nat>)
    requires Run(rand, area, minRoomSize, maxRoomSize, timeout, rooms, tws, accepts, n, false) && |tws| == |rooms|
    requires 1 <= retries <= timeout && n == StartAfter(accepts, |accepts|) + 4 * (timeout - retries)
    requires Candidate(rand, n, area, minRoomSize, maxRoomSize).Some?
    requires Rejected(Candidate(rand, n, area, minRoomSize, maxRoomSize).value, area, rooms) ==>
               rooms' == rooms && n' == n + 4 && retries' == retries - 1 && tws' == tws
    requires !Rejected(Candidate(rand, n, area, minRoomSize, maxRoomSize).value, area, rooms) ==>
               && rooms' == rooms + [Candidate(rand, n, area, minRoomSize, maxRoomSize).value]
               && n' == n + 5 && retries' == timeout
               && |tws'| == |tws| + 1 && tws' == tws + [tws'[|tws|]]
               && RandRange(rand, n + 4, 2, 3 + Width(Candidate(rand, n, area, minRoomSize, maxRoomSize).value) / 4)
                  == Success(tws'[|tws|])
    ensures Run(rand, area, minRoomSize, maxRoomSize, timeout, rooms', tws', accepts', n', retries' == 0)
    ensures n' == StartAfter(accepts', |accepts'|) + 4 * (timeout - retries')
  {
    var room := Candidate(rand, n, area, minRoomSize, maxRoomSize).value;
    if Rejected(room, area, rooms) {
      accepts' := accepts;
      RunRejects(rand, area, minRoomSize, maxRoomSize, timeout, rooms, tws, accepts, n, n');
    } else {
      accepts' := accepts + [n];
      RunAccepts(rand, area, minRoomSize, maxRoomSize, timeout, rooms, tws, accepts, n, room, tws'[|tws|],
                 rooms', tws', accepts', n');
    }
  }

  /** One pass of the generator loop: draw a room at stream position n and
      either reject it, spending one retry, or carve it with a corridor from
      lastCenter and restore the retries to timeout. The run of rejections
      since the last accepted room is timeout - roomTimeout long. */
  method Attempt(m: GameMap, roomTimeout: int, lastCenter: Vector, n: nat, area: Rect,
                 minRoomSize: int, maxRoomSize: int, center: Vector, roomTile: Tile, timeout: int,
                 rand: Stream, ghost tws: seq<int>, ghost cs: seq<Vector>)
    returns (r: Result<GameMap>, roomTimeout': int, lastCenter': Vector, n': nat,
             ghost tws': seq<int>, ghost cs': seq<Vector>)
    requires Generating(m, tws, cs, lastCenter, roomTile, area, minRoomSize, maxRoomSize, center)
    requires 1 <= roomTimeout <= timeout
    requires RejectedRun(rand, n, timeout - roomTimeout, area, minRoomSize, maxRoomSize, m.rooms)
    ensures (minRoomSize > maxRoomSize || area.x2 <= area.x1 || area.y2 <= area.y1) ==> r.Failure?
    ensures r.Failure? ==> minRoomSize > maxRoomSize || area.x2 <= area.x1 || area.y2 <= area.y1 || minRoomSize < 0
    ensures r.Success? ==> r.value.default == m.default
    ensures r.Success? ==> Generating(r.value, tws', cs', lastCenter', roomTile, area, minRoomSize, maxRoomSize, center)
    ensures r.Success? ==> 0 <= roomTimeout' <= timeout
    ensures r.Success? ==> RejectedRun(rand, n', timeout - roomTimeout', area, minRoomSize, maxRoomSize, r.value.rooms)
    ensures r.Success? ==>
              || (|r.value.rooms| == |m.rooms| + 1 && roomTimeout' == timeout)
              || (r.value.rooms == m.rooms && roomTimeout' == roomTimeout - 1)
    ensures r.Success? ==> Candidate(rand, n, area, minRoomSize, maxRoomSize).Some?
    ensures r.Success? && Rejected(Candidate(rand, n, area, minRoomSize, maxRoomSize).value, area, m.rooms) ==>
              r.value == m && n' == n + 4 && roomTimeout' == roomTimeout - 1 && tws' == tws
    ensures r.Success? && !Rejected(Candidate(rand, n, area, minRoomSize, maxRoomSize).value, area, m.rooms) ==>
              && r.value.rooms == m.rooms + [Candidate(rand, n, area, minRoomSize, maxRoomSize).value]
              && n' == n + 5 && roomTimeout' == timeout
              && |tws'| == |tws| + 1 && tws' == tws + [tws'[|tws|]]
              && RandRange(rand, n + 4, 2, 3 + Width(Candidate(rand, n, area, minRoomSize, maxRoomSize).value) / 4)
                 == Success(tws'[|tws|])
  {
    var drawn, intersects := DrawRoom(rand, n, area, minRoomSize, maxRoomSize, m.rooms);
    n' := n + 4;
    if drawn.Failure? {
      return Failure(drawn.error), roomTimeout, lastCenter, n', tws, cs;
    }
    var room := drawn.value;
    if intersects {
      RejectionStep(rand, n, n', timeout - roomTimeout, area, minRoomSize, maxRoomSize, m.rooms);
      return Success(m), roomTimeout - 1, lastCenter, n', tws, cs;
    }
    var x, y, w, h := room.x1, room.y1, room.x2 - room.x1, room.y2 - room.y1;
    assert MakeRect(x, y, w, h) == room;
    r, tws', cs' := PlaceRoom(m, x, y, w, h, n', lastCenter, roomTile, area, minRoomSize, maxRoomSize, center,
                              rand, tws, cs);
    if r.Failure? {
      return r, roomTimeout, lastCenter, n' + 1, tws, cs;
    }
    return r, timeout, Vector(x + w / 2, y + h / 2), n' + 1, tws', cs';
  }

  /** `Map.Random(area_rect, room_number, min_room_size, max_room_size,
      center, default, room_tile, timeout)`, drawing from rand. A positive
      timeout makes the loop terminate: each pass either adds a room or
      spends one retry, and the retries only reset when a room is added.
      The ghost outputs trace the draws: the stream position at which each
      accepted room was drawn, the tunnel widths, and the final position.
      Fewer rooms than asked for means the last timeout candidates before
      the final position were all rejected. A `ValueError` comes from a `randrange` over an empty range. */
  method Random(area: Rect, roomNumber: int, minRoomSize: int, maxRoomSize: int,
                center: Vector, default: Tile, roomTile: Tile, timeout: int, rand: Stream)
    returns (r: Result<GameMap>, ghost tws: seq<int>, ghost accepts: seq<nat>, ghost final: nat)
    requires timeout >= 1
    ensures r.Success? ==> r.value.default == default
    ensures r.Success? ==> GeneratedRooms(r.value.rooms, area, minRoomSize, maxRoomSize, center)
    ensures r.Success? ==> |r.value.rooms| <= (if roomNumber > 1 then roomNumber else 1)
    ensures r.Success? ==> CarvedWith(r.value, roomTile)
    ensures r.Success? ==> JoinedByCorridors(r.value)
    ensures r.Success? ==> exists tws :: LaidOut(r.value, tws)
    ensures r.Success? ==> LaidOut(r.value, tws)
    ensures r.Success? ==>
              Run(rand, area, minRoomSize, maxRoomSize, timeout, r.value.rooms, tws, accepts, final,
                  |r.value.rooms| < roomNumber)
    ensures r.Success? && |r.value.rooms| < roomNumber ==>
              exists p: nat :: RejectedRun(rand, p, timeout, area, minRoomSize, maxRoomSize, r.value.rooms)
    ensures roomNumber <= 1 ==> r.Success? && |r.value.rooms| == 1
    ensures (roomNumber > 1 && (minRoomSize > maxRoomSize || area.x2 <= area.x1 || area.y2 <= area.y1))
            ==> r.Failure?
    ensures r.Failure? ==>
              roomNumber > 1 && (minRoomSize > maxRoomSize || area.x2 <= area.x1 || area.y2 <= area.y1 || minRoomSize < 0)
  {
    var m := EmptyMap(default);
    var roomTimeout := timeout;
    var centerRoom := CenterRoom(center, maxRoomSize);
    m := SetRect(m, centerRoom, roomTile, true);
    var lastCenter := center;
    var n: nat := 0;
    tws, accepts, final := [0], [], 0;
    ghost var centers: seq<Vector> := [center];
    ChainStarts(m, center, maxRoomSize);
    BoundedStarts(m, center);
    RunStarts(rand, area, minRoomSize, maxRoomSize, timeout, m.rooms, tws);

    while |m.rooms| < roomNumber
      invariant 1 <= roomTimeout <= timeout
      invariant m.default == default
      invariant Generating(m, tws, centers, lastCenter, roomTile, area, minRoomSize, maxRoomSize, center)
      invariant RejectedRun(rand, n, timeout - roomTimeout, area, minRoomSize, maxRoomSize, m.rooms)
      invariant |m.rooms| <= (if roomNumber > 1 then roomNumber else 1)
      invariant (minRoomSize > maxRoomSize || area.x2 <= area.x1 || area.y2 <= area.y1) ==> |m.rooms| == 1
      invariant Run(rand, area, minRoomSize, maxRoomSize, timeout, m.rooms, tws, accepts, n, false)
      invariant n == StartAfter(accepts, |accepts|) + 4 * (timeout - roomTimeout)
      decreases roomNumber - |m.rooms|, roomTimeout
    {
      ghost var rooms0, n0, retries0, tws0 := m.rooms, n, roomTimeout, tws;
      var attempt;
      attempt, roomTimeout, lastCenter, n, tws, centers :=
        Attempt(m, roomTimeout, lastCenter, n, area, minRoomSize, maxRoomSize, center, roomTile, timeout,
                rand, tws, centers);
      if attempt.Failure? {
        return Failure(attempt.error), tws, accepts, n;
      }
      m := attempt.value;
      accepts := RunAfterAttempt(rand, area, minRoomSize, maxRoomSize, timeout, rooms0, tws0, accepts, n0, retries0,
                                 m.rooms, tws, n, roomTimeout);
      if roomTimeout == 0 {
        break;
      }
    }
    LaidOutFromChain(m, tws, centers);
    if |m.rooms| < roomNumber {
      RunExhausted(rand, area, minRoomSize, maxRoomSize, timeout, m.rooms, tws, accepts, n);
    }
    return Success(m), tws, accepts, n;
  }

  /** No two generated rooms intersect, in either order. */
  lemma GeneratedRoomsDisjoint(rooms: seq<Rect>, area: Rect, minRoomSize: int, maxRoomSize: int,
                               center: Vector, i: int, j: int)
    requires GeneratedRooms(rooms, area, minRoomSize, maxRoomSize, center)
    requires 0 <= i < |rooms| && 0 <= j < |rooms| && i != j
    ensures !Intersects(rooms[i], rooms[j])
  {
    if i < j {
      IntersectsSymmetric(rooms[j], rooms[i]);
    }
  }

  /** With room sizes of at least one cell, every room's center is a
      carved cell, so both ends of every corridor are open even where the
      half-open vertical bar stops short of the higher end. */
  lemma GeneratedCentersCarved(m: GameMap, roomTile: Tile, area: Rect, minRoomSize: int, maxRoomSize: int,
                               center: Vector)
    requires GeneratedRooms(m.rooms, area, minRoomSize, maxRoomSize, center) && CarvedWith(m, roomTile)
    requires 1 <= minRoomSize <= maxRoomSize
    ensures forall i :: 0 <= i < |m.rooms| ==> Center(m.rooms[i]) in m.grid && Get(m, Center(m.rooms[i])) == roomTile
  {
    forall i | 0 <= i < |m.rooms|
      ensures Center(m.rooms[i]) in m.grid
    {
      if i > 0 {
        assert SampledRoom(area, minRoomSize, maxRoomSize, m.rooms[i]);
      }
      CenterInside(m.rooms[i]);
    }
  }

  /** On a generated map every read yields the room tile or the default,
      and every cell of every room reads the room tile. */
  lemma GeneratedMapReads(m: GameMap, roomTile: Tile, k: Vector)
    requires CarvedWith(m, roomTile)
    ensures Get(m, k) == roomTile || Get(m, k) == m.default
    ensures (exists i :: 0 <= i < |m.rooms| && InRect(m.rooms[i], k)) ==> Get(m, k) == roomTile
  {
  }
}

=== FILE: geometry.dfy ===
/** Integer grid geometry: the integer case of `Vector` and the `Rect`
    shape of src/utils.py. */
module Geometry {

  /** A grid coordinate; also the key type of the tile map, since a
      Python `Vector(x, y)` equals and hashes like the tuple `(x, y)`. */
  datatype Vector = Vector(x: int, y: int)

  /** `v + w` (`__add__`, and `__radd__` in the other order): v moved by
      the offset w. */
  function Add(v: Vector, w: Vector): (r: Vector)
    ensures r.x - v.x == w.x && r.y - v.y == w.y
  {
    Vector(v.x + w.x, v.y + w.y)
  }

  /** `v - w`: the offset that moves w to v. */
  function Sub(v: Vector, w: Vector): (r: Vector)
    ensures Add(w, r) == v
  {
    Vector(v.x - w.x, v.y - w.y)
  }

  /** `v * k` (`__mul__`): every component c becomes `k * c`. `k * v`
      (`__rmul__`) computes `c * k` instead, which is the same vector. */
  function Scale(v: Vector, k: int): (r: Vector)
    ensures r.x == v.x * k && r.y == v.y * k
  {
    Vector(k * v.x, k * v.y)
  }

  /** Subtraction undoes addition, and addition undoes subtraction. */
  lemma AddSubCancel(v: Vector, w: Vector)
    ensures Sub(Add(v, w), w) == v
    ensures Add(Sub(v, w), w) == v
  {
  }

  lemma AddCommutes(v: Vector, w: Vector)
    ensures Add(v, w) == Add(w, v)
  {
  }

  lemma AddAssociates(u: Vector, v: Vector, w: Vector)
    ensures Add(Add(u, v), w) == Add(u, Add(v, w))
  {
  }

  /** Scaling distributes over vector addition, and `v * -1` is the inverse of `v`. */
  lemma ScaleDistributes(v: Vector, w: Vector, k: int)
    ensures Scale(Add(v, w), k) == Add(Scale(v, k), Scale(w, k))
    ensures Add(v, Scale(v, -1)) == Vector(0, 0)
  {
  }

  /** A rectangle normalised to its corners: (x1, y1) is inclusive and
      (x2, y2) is exclusive. */
  datatype Rect = Rect(x1: int, y1: int, x2: int, y2: int)

  /** `Rect(x, y, w, h)`: origin plus width and height. */
  function MakeRect(x: int, y: int, w: int, h: int): (r: Rect)
    ensures r.x1 == x && r.y1 == y
    ensures r.x2 - r.x1 == w && r.y2 - r.y1 == h
    ensures w >= 0 && h >= 0 ==> r.x1 <= r.x2 && r.y1 <= r.y2
  {
    Rect(x, y, x + w, y + h)
  }

  function Width(r: Rect): int
  {
    r.x2 - r.x1
  }

  function Height(r: Rect): int
  {
    r.y2 - r.y1
  }

  /** The cell p is one of the rectangle's cells (half-open on both axes). */
  predicate InRect(r: Rect, p: Vector)
  {
    r.x1 <= p.x < r.x2 && r.y1 <= p.y < r.y2
  }

  /** The rectangle's closed extent [x1, x2] x [y1, y2] holds the point p. */
  predicate InClosure(r: Rect, p: Vector)
  {
    r.x1 <= p.x <= r.x2 && r.y1 <= p.y <= r.y2
  }

  /** `intersects`: closed-interval overlap on both axes, so rectangles
      that only touch along an edge or at a corner intersect. */
  predicate Intersects(a: Rect, b: Rect)
  {
    a.x1 <= b.x2 && b.x1 <= a.x2 && a.y1 <= b.y2 && b.y1 <= a.y2
  }

  /** `contains`: b lies completely inside a. */
  predicate Contains(a: Rect, b: Rect)
  {
    a.x1 <= b.x1 && a.x2 >= b.x2 && a.y1 <= b.y1 && a.y2 >= b.y2
  }

  /** `get_center`: the midpoint, rounded down on each axis. */
  function Center(r: Rect): (c: Vector)
    ensures 2 * c.x <= r.x1 + r.x2 <= 2 * c.x + 1
    ensures 2 * c.y <= r.y1 + r.y2 <= 2 * c.y + 1
  {
    Vector(r.x1 + (r.x2 - r.x1) / 2, r.y1 + (r.y2 - r.y1) / 2)
  }

  lemma IntersectsSymmetric(a: Rect, b: Rect)
    ensures Intersects(a, b) <==> Intersects(b, a)
  {
  }

  /** The overlap test is exactly "the closed extents share a grid point". */
  lemma IntersectsIffSharedPoint(a: Rect, b: Rect)
    requires a.x1 <= a.x2 && a.y1 <= a.y2
    requires b.x1 <= b.x2 && b.y1 <= b.y2
    ensures Intersects(a, b) <==> exists p :: InClosure(a, p) && InClosure(b, p)
  {
    if Intersects(a, b) {
      var p := Vector(if a.x1 < b.x1 then b.x1 else a.x1, if a.y1 < b.y1 then b.y1 else a.y1);
      assert InClosure(a, p) && InClosure(b, p);
    }
  }

  /** Edge and corner contact counts as intersecting; a one-cell gap does not. */
  lemma TouchingRectsIntersect()
    ensures Intersects(MakeRect(0, 0, 4, 4), MakeRect(4, 4, 2, 2))
    ensures Intersects(MakeRect(0, 0, 4, 4), MakeRect(4, 0, 2, 4))
    ensures !Intersects(MakeRect(0, 0, 4, 4), MakeRect(5, 0, 2, 4))
  {
  }

  lemma ContainsReflexive(a: Rect)
    ensures Contains(a, a)
  {
  }

  lemma ContainsTransitive(a: Rect, b: Rect, c: Rect)
    requires Contains(a, b) && Contains(b, c)
    ensures Contains(a, c)
  {
  }

  /** Containment is not symmetric: `Rect(0,0,4,4)` contains `Rect(1,1,2,2)`, and not the other way round. */
  lemma ContainsNotSymmetric()
    ensures Contains(MakeRect(0, 0, 4, 4), MakeRect(1, 1, 2, 2))
    ensures !Contains(MakeRect(1, 1, 2, 2), MakeRect(0, 0, 4, 4))
  {
  }

  /** For a rectangle with at least one cell, `contains` is exactly
      "every cell of b is a cell of a". */
  lemma ContainsIffCells(a: Rect, b: Rect)
    requires b.x1 < b.x2 && b.y1 < b.y2
    ensures Contains(a, b) <==> forall p :: InRect(b, p) ==> InRect(a, p)
  {
    if forall p :: InRect(b, p) ==> InRect(a, p) {
      assert InRect(b, Vector(b.x1, b.y1));
      assert InRect(b, Vector(b.x2 - 1, b.y2 - 1));
    }
  }

  /** A rectangle of non-negative size intersects every rectangle that contains it. */
  lemma ContainsImpliesIntersects(a: Rect, b: Rect)
    requires b.x1 <= b.x2 && b.y1 <= b.y2
    requires Contains(a, b)
    ensures Intersects(a, b)
  {
  }

  /** The center of a rectangle with positive width and height is one of its cells. */
  lemma CenterInside(r: Rect)
    requires Width(r) > 0 && Height(r) > 0
    ensures InRect(r, Center(r))
  {
  }
}

=== FILE: grid.dfy ===
/** The `Map` class of src/map.py: a sparse, unbounded plane of tiles with
    a default tile for every cell never written, plus the list of rooms. */
module Grid {
  import opened Results
  import opened PyInt
  import opened Geometry
  import opened Tiles

  datatype GameMap = GameMap(grid: map<Vector, Tile>, rooms: seq<Rect>, default: Tile)

  /** `Map(default=d)`: no stored cells and no rooms, so every cell reads d. */
  function EmptyMap(d: Tile): (r: GameMap)
    ensures |r.grid| == 0 && r.rooms == [] && r.default == d
    ensures forall k :: Get(r, k) == d
  {
    GameMap(map[], [], d)
  }

  /** `map[key]`: the stored tile, or `default` when the key was never
      written. A read never fails: every key reads some tile the map holds. */
  function Get(m: GameMap, key: Vector): (t: Tile)
    ensures t == m.default || t in m.grid.Values
  {
    if key in m.grid then m.grid[key] else m.default
  }

  /** `map[key] = t`: the key now reads t; every other key, the rooms and
      the default are unchanged. */
  function Set(m: GameMap, key: Vector, t: Tile): (r: GameMap)
    ensures Get(r, key) == t
    ensures forall k :: k != key ==> Get(r, k) == Get(m, k)
    ensures r.rooms == m.rooms && r.default == m.default
  {
    m.(grid := m.grid[key := t])
  }

  /** One `map[key] = tile` assignment. */
  datatype Write = Write(key: Vector, tile: Tile)

  /** The map after performing the writes in order. */
  function ApplyWrites(m: GameMap, ws: seq<Write>): GameMap
  {
    if |ws| == 0 then m
    else
      var last := ws[|ws| - 1];
      Set(ApplyWrites(m, ws[..|ws| - 1]), last.key, last.tile)
  }

  /** The tile of the last write to key, if there was one. */
  function LastWritten(ws: seq<Write>, key: Vector): Option<Tile>
  {
    if |ws| == 0 then None
    else if ws[|ws| - 1].key == key then Some(ws[|ws| - 1].tile)
    else LastWritten(ws[..|ws| - 1], key)
  }

  /** After any sequence of writes, a key reads the value of its last write,
      or what it read before when no write touched it. */
  lemma {:induction false} ReadAfterWrites(m: GameMap, ws: seq<Write>, key: Vector)
    ensures Get(ApplyWrites(m, ws), key)
         == (match LastWritten(ws, key) case Some(t) => t case None => Get(m, key))
    ensures ApplyWrites(m, ws).default == m.default
  {
    if |ws| > 0 {
      ReadAfterWrites(m, ws[..|ws| - 1], key);
    }
  }

  /** On a fresh map, a key never written reads `default` and a written key
      reads the value last stored there. */
  lemma FreshMapReads(d: Tile, ws: seq<Write>, key: Vector)
    ensures LastWritten(ws, key).None? ==> Get(ApplyWrites(EmptyMap(d), ws), key) == d
    ensures LastWritten(ws, key).Some? ==>
              Get(ApplyWrites(EmptyMap(d), ws), key) == LastWritten(ws, key).value
  {
    ReadAfterWrites(EmptyMap(d), ws, key);
  }

  // ---------------------------------------------------------------------
  // Pages: the plane cut into width x height windows aligned to (0, 0).

  /** The lower-left corner of the page that holds location,
      `(floor(x / width) * width, floor(y / height) * height)`. */
  function PageOrigin(width: int, height: int, location: Vector): Vector
    requires width != 0 && height != 0
  {
    Vector(FloorDiv(location.x, width) * width, FloorDiv(location.y, height) * height)
  }

  /** `in_area`: a `ValueError` when width or height is zero; otherwise
      whether the two locations have the same page origin. */
  function InArea(width: int, height: int, location1: Vector, location2: Vector): (r: Result<bool>)
    ensures r.Failure? <==> width == 0 || height == 0
    ensures r.Success? ==> (r.value <==> PageOrigin(width, height, location1) == PageOrigin(width, height, location2))
  {
    if width == 0 || height == 0 then Failure(ValueError("width and height must not be 0"))
    else Success(PageOrigin(width, height, location1) == PageOrigin(width, height, location2))
  }

  lemma InAreaReflexive(width: int, height: int, a: Vector)
    requires width != 0 && height != 0
    ensures InArea(width, height, a, a) == Success(true)
  {
  }

  lemma InAreaSymmetric(width: int, height: int, a: Vector, b: Vector)
    ensures InArea(width, height, a, b) == InArea(width, height, b, a)
  {
  }

  lemma InAreaTransitive(width: int, height: int, a: Vector, b: Vector, c: Vector)
    requires InArea(width, height, a, b) == Success(true)
    requires InArea(width, height, b, c) == Success(true)
    ensures InArea(width, height, a, c) == Success(true)
  {
  }

  /** The page with indices (i, j): columns [i*w, i*w + w), rows [j*h, j*h + h). */
  predicate OnPage(width: int, height: int, i: int, j: int, p: Vector)
  {
    i * width <= p.x < i * width + width && j * height <= p.y < j * height + height
  }

  /** For positive sizes, two locations are in the same area exactly when one
      grid-aligned width x height page holds both. */
  lemma InAreaIffSamePage(width: int, height: int, a: Vector, b: Vector)
    requires width > 0 && height > 0
    ensures InArea(width, height, a, b) == Success(true)
        <==> exists i, j :: OnPage(width, height, i, j, a) && OnPage(width, height, i, j, b)
  {
    if InArea(width, height, a, b) == Success(true) {
      var i, j := FloorDiv(a.x, width), FloorDiv(a.y, height);
      var ib, jb := FloorDiv(b.x, width), FloorDiv(b.y, height);
      PageIndexOfOrigin(width, i, ib);
      PageIndexOfOrigin(height, j, jb);
      assert OnPage(width, height, i, j, a) && OnPage(width, height, i, j, b);
    }
    if exists i, j :: OnPage(width, height, i, j, a) && OnPage(width, height, i, j, b) {
      var i, j :| OnPage(width, height, i, j, a) && OnPage(width, height, i, j, b);
      FloorDivUnique(a.x, width, i);
      FloorDivUnique(b.x, width, i);
      FloorDivUnique(a.y, height, j);
      FloorDivUnique(b.y, height, j);
    }
  }

  /** Equal page origins mean equal page indices. */
  lemma PageIndexOfOrigin(size: int, i: int, k: int)
    requires size > 0 && i * size == k * size
    ensures i == k
  {
    if i < k {
      MulMonotone(i + 1, k, size);
    } else if k < i {
      MulMonotone(k + 1, i, size);
    }
  }

  /** Paging uses floor division, so (-1, -1) and (0, 0) fall on different
      pages while (3, 3) and (9, 9) share one and (10, 10) starts the next. */
  lemma PagingExamples()
    ensures InArea(10, 10, Vector(-1, -1), Vector(0, 0)) == Success(false)
    ensures InArea(10, 10, Vector(3, 3), Vector(9, 9)) == Success(true)
    ensures InArea(10, 10, Vector(3, 3), Vector(10, 10)) == Success(false)
    ensures InArea(0, 10, Vector(3, 3), Vector(3, 3)).Failure?
  {
    assert FloorDiv(-1, 10) == -1;
    assert FloorDiv(0, 10) == 0;
    assert FloorDiv(3, 10) == 0;
    assert FloorDiv(9, 10) == 0;
    assert FloorDiv(10, 10) == 1;
  }

  // ---------------------------------------------------------------------
  // get_area

  /** One entry of an area: a coordinate and the tile read there. */
  type Square = (Vector, Tile)

  /** The number of iterations of Python's `range(n)`. */
  function Count(n: int): nat
  {
    if n > 0 then n else 0
  }

  /** The coordinate `get_area` places at column x, row j: rows run from the
      top of the page (highest y) downwards. */
  function AreaCoord(width: int, height: int, location: Vector, x: int, j: int): Vector
    requires width != 0 && height != 0
  {
    var origin := PageOrigin(width, height, location);
    Vector(x + origin.x, height - 1 - j + origin.y)
  }

  /** `get_area`: a `ValueError` for a zero width or height; otherwise
      `width` columns of `height` entries, entry [x][j] pairing
      `AreaCoord(.., x, j)` with the tile the map holds there. */
  function GetArea(m: GameMap, width: int, height: int, location: Vector): (r: Result<seq<seq<Square>>>)
    ensures r.Failure? <==> width == 0 || height == 0
    ensures r.Success? ==> |r.value| == Count(width)
    ensures r.Success? ==> forall x :: 0 <= x < |r.value| ==> |r.value[x]| == Count(height)
  {
    if width == 0 || height == 0 then Failure(ValueError("Width and height must not be 0"))
    else
      Success(seq(Count(width), x requires 0 <= x < Count(width) =>
        seq(Count(height), j requires 0 <= j < Count(height) =>
          var sq := AreaCoord(width, height, location, x, j); (sq, Get(m, sq)))))
  }

  /** Entry [x][j] of an area pairs a cell of the location's page with the
      tile the map holds there. */
  lemma AreaEntryOnPage(m: GameMap, width: int, height: int, location: Vector, x: int, j: int)
    requires width > 0 && height > 0
    requires 0 <= x < width && 0 <= j < height
    ensures var e := GetArea(m, width, height, location).value[x][j];
            e.1 == Get(m, e.0) && InArea(width, height, e.0, location) == Success(true)
  {
    var e := AreaCoord(width, height, location, x, j);
    var i, k := FloorDiv(location.x, width), FloorDiv(location.y, height);
    assert OnPage(width, height, i, k, e) && OnPage(width, height, i, k, location);
    InAreaIffSamePage(width, height, e, location);
  }

  /** A cell p of the location's page is entry [p.x - x_off][height - 1 - (p.y - y_off)]. */
  lemma PageCellInArea(m: GameMap, width: int, height: int, location: Vector, p: Vector)
    requires width > 0 && height > 0
    requires InArea(width, height, p, location) == Success(true)
    ensures var origin := PageOrigin(width, height, location);
            var x, j := p.x - origin.x, height - 1 - (p.y - origin.y);
            0 <= x < width && 0 <= j < height &&
            GetArea(m, width, height, location).value[x][j] == (p, Get(m, p))
  {
    var origin := PageOrigin(width, height, location);
    assert PageOrigin(width, height, p) == origin;
    var x, j := p.x - origin.x, height - 1 - (p.y - origin.y);
    assert AreaCoord(width, height, location, x, j) == p;
  }

  /** For positive sizes, `get_area` lists exactly the cells of the
      location's page, each once, with the tile the map holds there: every
      entry lies on the page, and every cell of the page sits at column
      `p.x - origin.x`, row `height - 1 - (p.y - origin.y)`. */
  lemma GetAreaIsPage(m: GameMap, width: int, height: int, location: Vector)
    requires width > 0 && height > 0
    ensures forall x, j :: 0 <= x < width && 0 <= j < height ==>
              var e := GetArea(m, width, height, location).value[x][j];
              e.1 == Get(m, e.0) && InArea(width, height, e.0, location) == Success(true)
    ensures forall p :: InArea(width, height, p, location) == Success(true) ==>
              var origin := PageOrigin(width, height, location);
              var x, j := p.x - origin.x, height - 1 - (p.y - origin.y);
              0 <= x < width && 0 <= j < height &&
              GetArea(m, width, height, location).value[x][j] == (p, Get(m, p))
  {
    forall x, j | 0 <= x < width && 0 <= j < height
      ensures var e := GetArea(m, width, height, location).value[x][j];
              e.1 == Get(m, e.0) && InArea(width, height, e.0, location) == Success(true)
    {
      AreaEntryOnPage(m, width, height, location, x, j);
    }
    forall p | InArea(width, height, p, location) == Success(true)
      ensures var origin := PageOrigin(width, height, location);
              var x, j := p.x - origin.x, height - 1 - (p.y - origin.y);
              0 <= x < width && 0 <= j < height &&
              GetArea(m, width, height, location).value[x][j] == (p, Get(m, p))
    {
      PageCellInArea(m, width, height, location, p);
    }
  }

  // ---------------------------------------------------------------------
  // set_rect and set_connection

  /** Cell k has been painted once the loops of `set_rect` have reached
      column x, row y: all of the columns before x, and the rows before y
      of column x. */
  predicate Painted(rect: Rect, x: int, y: int, k: Vector)
  {
    (rect.x1 <= k.x < x && rect.y1 <= k.y < rect.y2) || (k.x == x && rect.y1 <= k.y < y)
  }

  /** `set_rect`: stores a copy of tile in every cell of rect, leaves every
      other stored cell as it was, and appends rect to the rooms exactly
      once when is_room holds. */
  method SetRect(m: GameMap, rect: Rect, tile: Tile, isRoom: bool) returns (r: GameMap)
    ensures forall k :: k in r.grid <==> k in m.grid || InRect(rect, k)
    ensures forall k :: InRect(rect, k) ==> k in r.grid && r.grid[k] == tile
    ensures forall k :: k in m.grid && !InRect(rect, k) ==> k in r.grid && r.grid[k] == m.grid[k]
    ensures r.rooms == (if isRoom then m.rooms + [rect] else m.rooms)
    ensures r.default == m.default
  {
    var g := m.grid;
    var x := rect.x1;
    while x < rect.x2
      invariant rect.x1 <= x && (x <= rect.x2 || x == rect.x1)
      invariant forall k :: k in g <==> k in m.grid || Painted(rect, x, rect.y1, k)
      invariant forall k :: k in g ==> g[k] == (if Painted(rect, x, rect.y1, k) then tile else m.grid[k])
    {
      var y := rect.y1;
      while y < rect.y2
        invariant rect.y1 <= y && (y <= rect.y2 || y == rect.y1)
        invariant forall k :: k in g <==> k in m.grid || Painted(rect, x, y, k)
        invariant forall k :: k in g ==> g[k] == (if Painted(rect, x, y, k) then tile else m.grid[k])
      {
        g := g[Vector(x, y) := ShallowCopy(tile)];
        y := y + 1;
      }
      x := x + 1;
    }
    r := GameMap(g, if isRoom then m.rooms + [rect] else m.rooms, m.default);
  }

  function Abs(n: int): nat
  {
    if n < 0 then -n else n
  }

  function Min(a: int, b: int): int
  {
    if a < b then a else b
  }

  /** The horizontal bar of `set_connection`: along location1's row, from
      the leftmost to the rightmost of the two columns, widened by half
      the width on each side. */
  function HorizontalBar(location1: Vector, location2: Vector, width: int): (r: Rect)
    ensures r.y2 - r.y1 == width && r.x2 - r.x1 == Abs(location1.x - location2.x) + width
  {
    MakeRect(Min(location1.x, location2.x) - width / 2, location1.y - width / 2,
             Abs(location1.x - location2.x) + width, width)
  }

  /** The vertical bar of `set_connection`: along location2's column, from
      the lower of the two rows up to (not including) the higher one. */
  function VerticalBar(location1: Vector, location2: Vector, width: int): (r: Rect)
    ensures r.x2 - r.x1 == width && r.y2 - r.y1 == Abs(location1.y - location2.y)
  {
    MakeRect(location2.x - width / 2, Min(location1.y, location2.y),
             width, Abs(location1.y - location2.y))
  }

  /** The L-shaped corridor of positive width covers location1, the whole
      row of location1 between the two columns, the column of location2
      from the lower row up to below the higher row, and location2 itself
      whenever location2 is not above location1. */
  lemma CorridorShape(location1: Vector, location2: Vector, width: int)
    requires width >= 1
    ensures InRect(HorizontalBar(location1, location2, width), location1)
    ensures forall x :: Min(location1.x, location2.x) <= x <= location1.x + location2.x - Min(location1.x, location2.x) ==>
              InRect(HorizontalBar(location1, location2, width), Vector(x, location1.y))
    ensures forall y :: Min(location1.y, location2.y) <= y < location1.y + location2.y - Min(location1.y, location2.y) ==>
              InRect(VerticalBar(location1, location2, width), Vector(location2.x, y))
    ensures location2.y <= location1.y ==>
              InRect(HorizontalBar(location1, location2, width), location2)
              || InRect(VerticalBar(location1, location2, width), location2)
  {
  }

  /** The vertical bar stops one row short of the higher endpoint, so a
      location2 far enough above location1 is left uncarved. */
  lemma CorridorMissesHigherEnd()
    ensures !InRect(HorizontalBar(Vector(0, 0), Vector(0, 5), 1), Vector(0, 5))
    ensures !InRect(VerticalBar(Vector(0, 0), Vector(0, 5), 1), Vector(0, 5))
  {
  }

  /** `set_connection`: paints the horizontal and then the vertical bar
      with copies of tile; only cells of the two bars change, and the
      rooms are left alone. */
  method SetConnection(m: GameMap, location1: Vector, location2: Vector, width: int, tile: Tile)
    returns (r: GameMap)
    ensures forall k :: k in r.grid <==>
              k in m.grid || InRect(HorizontalBar(location1, location2, width), k)
                          || InRect(VerticalBar(location1, location2, width), k)
    ensures forall k :: k in r.grid ==>
              r.grid[k] == (if InRect(HorizontalBar(location1, location2, width), k)
                               || InRect(VerticalBar(location1, location2, width), k)
                            then tile else m.grid[k])
    ensures width >= 1 ==> Get(r, location1) == tile
    ensures r.rooms == m.rooms && r.default == m.default
  {
    var rectH := HorizontalBar(location1, location2, width);
    var rectV := VerticalBar(location1, location2, width);
    var m1 := SetRect(m, rectH, tile, false);
    r := SetRect(m1, rectV, tile, false);
    if width >= 1 {
      CorridorShape(location1, location2, width);
    }
  }
}

=== FILE: objects.dfy ===
/** `Object` and `Player` of src/objects.py: things that stand on a cell
    of the map and move by a velocity when the target tile allows it. */
module Objects {
  import opened Results
  import opened Geometry
  import opened Tiles
  import opened Grid

  /** A drawable thing. `symbol` holds the code points (or bytes) of the
      glyph; `gameMap` is absent for objects built without a map; `blocks`
      says whether it occupies its cell for collision purposes. */
  datatype Object = Object(
    location: Vector,
    symbol: seq<int>,
    color: Color,
    visible: bool,
    gameMap: Option<GameMap>,
    blocks: bool)

  /** The object's map exists and the tile at `location + velocity` is not blocked. */
  predicate CanMove(o: Object, velocity: Vector)
  {
    o.gameMap.Some? && !Get(o.gameMap.value, Add(o.location, velocity)).blocked
  }

  /** `move`: steps by velocity when the object has a map whose tile at the
      target is not blocked; otherwise stays put. Nothing but the location
      ever changes. */
  function Move(o: Object, velocity: Vector): (r: Object)
    ensures r == o.(location := r.location)
    ensures CanMove(o, velocity) ==> r.location == Add(o.location, velocity)
    ensures !CanMove(o, velocity) ==> r.location == o.location
  {
    if o.gameMap.Some? && !Get(o.gameMap.value, Add(o.location, velocity)).blocked
    then o.(location := Add(o.location, velocity))
    else o
  }

  /** The object stands on a cell its own map does not block. */
  predicate OnOpenCell(o: Object)
  {
    o.gameMap.Some? && !Get(o.gameMap.value, o.location).blocked
  }

  /** A move never takes an object off open ground. */
  lemma MoveKeepsOpenCell(o: Object, velocity: Vector)
    requires OnOpenCell(o)
    ensures OnOpenCell(Move(o, velocity))
  {
  }

  /** The moves of a sequence of velocities, one after the other. */
  function MoveAll(o: Object, velocities: seq<Vector>): Object
    decreases |velocities|
  {
    if |velocities| == 0 then o
    else MoveAll(Move(o, velocities[0]), velocities[1..])
  }

  /** However many moves are made, an object that starts on open ground
      stays on open ground, and only its location changes. */
  lemma {:induction false} MoveAllKeepsOpenCell(o: Object, velocities: seq<Vector>)
    requires OnOpenCell(o)
    ensures OnOpenCell(MoveAll(o, velocities))
    ensures MoveAll(o, velocities) == o.(location := MoveAll(o, velocities).location)
    decreases |velocities|
  {
    if |velocities| > 0 {
      MoveKeepsOpenCell(o, velocities[0]);
      MoveAllKeepsOpenCell(Move(o, velocities[0]), velocities[1..]);
    }
  }

  /** A successful move from open ground is undone by the opposite move. */
  lemma MoveUndo(o: Object, velocity: Vector)
    requires OnOpenCell(o) && CanMove(o, velocity)
    ensures Move(Move(o, velocity), Scale(velocity, -1)) == o
  {
    var back := Move(o, velocity);
    assert Add(back.location, Scale(velocity, -1)) == o.location;
  }

  /** `Player(location, symbol, color, game_map)`: an object that is always visible. */
  function MakePlayer(location: Vector, symbol: seq<int>, color: Color, gameMap: Option<GameMap>): (p: Object)
    ensures p.visible
    ensures p.location == location && p.symbol == symbol && p.color == color && p.gameMap == gameMap
  {
    Object(location, symbol, color, true, gameMap, false)
  }
}

=== FILE: pyint.dfy ===
/** Python's integer floor division and modulo, for any non-zero divisor.
    Dafny's own `/` and `%` are Euclidean; they agree with Python's only
    when the divisor is positive. */
module PyInt {

  /** `a // b`: the largest integer q with q*b <= a (for b > 0). */
  function FloorDiv(a: int, b: int): (q: int)
    requires b != 0
    ensures b > 0 ==> q * b <= a < q * b + b
    ensures b < 0 ==> q * b + b < a <= q * b
  {
    if b > 0 then a / b else (-a) / (-b)
  }

  /** `a % b`: the remainder that takes the sign of the divisor. */
  function PyMod(a: int, b: int): (r: int)
    requires b != 0
    ensures a == FloorDiv(a, b) * b + r
    ensures b > 0 ==> 0 <= r < b
    ensures b < 0 ==> b < r <= 0
  {
    a - FloorDiv(a, b) * b
  }

  /** Floor division has exactly one answer: the q whose block [q*b, q*b+b) holds a. */
  lemma FloorDivUnique(a: int, b: int, q: int)
    requires b > 0
    requires q * b <= a < q * b + b
    ensures FloorDiv(a, b) == q
  {
    var f := FloorDiv(a, b);
    if f < q {
      MulMonotone(f + 1, q, b);
      assert false;
    } else if q < f {
      MulMonotone(q + 1, f, b);
      assert false;
    }
  }

  lemma MulMonotone(i: int, j: int, b: int)
    requires i <= j && b > 0
    ensures i * b <= j * b
  {
    assert j * b - i * b == (j - i) * b;
  }

  /** Counting rows from the other end: `(-a - 1) % b == b - 1 - a % b` for b > 0. */
  lemma NegatedPyMod(a: int, b: int)
    requires b > 0
    ensures PyMod(-a - 1, b) == b - 1 - PyMod(a, b)
  {
    var q := FloorDiv(a, b);
    var r := PyMod(a, b);
    assert (-q - 1) * b == -(q * b) - b;
    FloorDivUnique(-a - 1, b, -q - 1);
  }
}

=== FILE: results.dfy ===
/** Failure-carrying values for the few places where the game code raises. */
module Results {

  /** A value that may be absent (Python's `None`). */
  datatype Option<+T> = None | Some(value: T)

  /** The exceptions the modelled code can raise. */
  datatype Error =
    | ValueError(message: string)
    | TypeError(message: string)

  /** Either a successful value or the exception raised while computing it. */
  datatype Result<+T> = Success(value: T) | Failure(error: Error)
}

=== FILE: screen.dfy ===
/** The display-independent parts of rough_light.py: the arrow-key
    movement table, the room labels of `Game.__init__`, and the mapping of
    Cartesian map coordinates to console cells. */
module Screen {
  import opened Results
  import opened PyInt
  import opened Geometry
  import opened Grid
  import opened Objects
  import Game

  datatype Key = KeyUp | KeyDown | KeyLeft | KeyRight

  /** `KEY_MOVEMENT_VECTORS`: y grows upwards, so the up key is (0, 1). */
  const KeyMovementVectors: map<Key, Vector> := map[
    KeyUp := Vector(0, 1),
    KeyDown := Vector(0, -1),
    KeyLeft := Vector(-1, 0),
    KeyRight := Vector(1, 0)]

  /** Every arrow key has a vector, each a single step along one axis, and
      no two keys share a vector. */
  lemma KeyMovementVectorsAreUnitSteps()
    ensures forall k: Key :: k in KeyMovementVectors
    ensures forall k: Key :: Abs(KeyMovementVectors[k].x) + Abs(KeyMovementVectors[k].y) == 1
    ensures forall k1: Key, k2: Key :: k1 != k2 ==> KeyMovementVectors[k1] != KeyMovementVectors[k2]
    ensures KeyMovementVectors[KeyUp] == Vector(0, 1)
  {
    forall k: Key
      ensures k in KeyMovementVectors
    {
      match k
      case KeyUp =>
      case KeyDown =>
      case KeyLeft =>
      case KeyRight =>
    }
  }

  /** `convert_location`: the console cell of a map location; the column is
      `x mod width` and the row counts down from the top, `(-y - 1) mod height`.
      Python's `%` raises for a zero width or height. */
  function ConvertLocation(width: int, height: int, location: Vector): (s: Vector)
    requires width != 0 && height != 0
    ensures width > 0 ==> 0 <= s.x < width
    ensures height > 0 ==> 0 <= s.y < height && s.y == height - 1 - PyMod(location.y, height)
  {
    var s := Vector(PyMod(location.x, width), PyMod(-location.y - 1, height));
    if height > 0 then NegatedPyMod(location.y, height); s else s
  }

  /** A location on the anchor's page is drawn in the console cell at which
      `get_area` lists it: column `convert_location(..).x`, row `convert_location(..).y`. */
  lemma ConvertLocationMatchesArea(m: GameMap, width: int, height: int, anchor: Vector, p: Vector)
    requires width > 0 && height > 0
    requires InArea(width, height, p, anchor) == Success(true)
    ensures var s := ConvertLocation(width, height, p);
            GetArea(m, width, height, anchor).value[s.x][s.y] == (p, Get(m, p))
  {
    PageCellInArea(m, width, height, anchor, p);
    var origin := PageOrigin(width, height, anchor);
    assert PageOrigin(width, height, p) == origin;
  }

  /** The label loop of `Game.__init__`: one label per room at its center,
      lettered from 'a' and built invisible and without a map. */
  method ScreenLabels(rooms: seq<Rect>) returns (labels: seq<Object>)
    requires |rooms| <= Game.MaxLabels
    ensures |labels| == |rooms|
    ensures forall i :: 0 <= i < |rooms| ==> Game.IsLabel(labels[i], rooms[i], i, Game.White, false)
  {
    labels := Game.RoomLabels(rooms, Game.White, false);
  }
}

=== FILE: tiles.dfy ===
/** The `Tile` value of src/map.py: one cell's colours and traversal flags. */
module Tiles {
  import opened Results

  /** A display tint (a libtcod colour or an RGB triple in the game code). */
  datatype Color = Rgb(r: int, g: int, b: int)

  /** The payload of a tile's events; the core never looks inside it. */
  type Events = seq<int>

  datatype Tile = Tile(
    color: Color,
    blocked: bool,      // creatures cannot move into the cell
    blockSight: bool,   // a ray of sight stops at the cell
    events: Option<Events>,
    darkColor: Color)   // tint for a cell explored but not currently seen

  /** `Tile(color, blocked, block_sight=None, events=None, dark_color=None)`:
      an omitted `block_sight` falls back to `blocked` and an omitted
      `dark_color` falls back to `color`; given values are kept as given. */
  function NewTile(color: Color, blocked: bool, blockSight: Option<bool>,
                   events: Option<Events>, darkColor: Option<Color>): (t: Tile)
    ensures t.color == color && t.blocked == blocked && t.events == events
    ensures t.blockSight == (if blockSight.Some? then blockSight.value else blocked)
    ensures t.darkColor == (if darkColor.Some? then darkColor.value else color)
  {
    var sight := match blockSight case Some(b) => b case None => blocked;
    var dark := match darkColor case Some(c) => c case None => color;
    Tile(color, blocked, sight, events, dark)
  }

  /** `shallow_copy`: rebuilds the tile through the constructor from its
      own fields; the copy is equal to the original in every field. */
  function ShallowCopy(t: Tile): (c: Tile)
    ensures c == t
  {
    NewTile(t.color, t.blocked, Some(t.blockSight), t.events, Some(t.darkColor))
  }

  /** Omitting the optional arguments is the same as passing the fallbacks explicitly. */
  lemma OmittedDefaultsAreFallbacks(color: Color, blocked: bool, events: Option<Events>)
    ensures NewTile(color, blocked, None, events, None)
         == NewTile(color, blocked, Some(blocked), events, Some(color))
  {
  }
}
